=== FILE: README.md ===
# nvline core, modelled in Dafny

nvline is a small monitor. On every tick it queries the GPUs with
`nvidia-smi`, or the host's memory through `sysctl` on macOS. It parses the
output into `GpuInfo` records and appends one JSON line per record to a log
file. That file is a ring of `max_lines` entries: once it holds `max_lines`
entries' worth of bytes, each new line overwrites slot `curr` and the cursor
moves on.

This project models the pure logic of that program:

- `parse_gpu_info`. It trims the output and splits it into lines. Each line
  is split at `,` and its fields are trimmed. Lines with fewer than six
  fields are skipped. " MiB" is stripped from the three memory columns but
  not from the temperature. One unreadable number makes the whole result
  `None`.
- `parse_sysctl_vm_info`. Each "Total Memory" line pushes a synthetic
  "Memory" record. "Used Memory" and "Free Memory" lines patch record 0,
  which is indexed without a guard.
- The ring-write rule of the main loop: where a line is written, how the
  cursor moves, and how the file grows. It starts from the truncated file
  and `curr = 0`.
- The loop itself. A failed probe or an unparseable output writes nothing.
  A probe that cannot be launched makes `main` return an error. Output
  that is not UTF-8, or a panic in the memory parser, makes the process
  panic.

The files:

- `optional.dfy`: the `Option` type.
- `text.dfy`: Rust's `str::trim`, `split(char)` and `replace(pat, "")`.
  `trim` uses the exact Unicode `White_Space` set that `char::is_whitespace`
  uses.
- `decimal.dfy`: `u64::from_str`. It accepts one optional leading `+` and
  ASCII digits, and fails on overflow past 2^64 - 1. `Show` is decimal
  printing.
- `telemetry.dfy`: `GpuInfo`, plus the shared line and field splitting.
- `gpu_parser.dfy`: `parse_gpu_info`.
- `vm_parser.dfy`: `parse_sysctl_vm_info`.
- `ring_log.dfy`: the file as a byte sequence, the seek/cursor rule and
  `write_all`.
- `sampling_loop.dfy`: one loop cycle and whole runs.

An early Used/Free line, one that comes before any "Total Memory" line,
panics only when its number parses. If the number is unreadable, the
parser returns `None` instead. This is because Rust evaluates the
right-hand side of `mem_info[0].memory_used = value.parse().ok()?` before
the indexed place (src/main.rs:81-84). `VmParser.ScanEntry` follows this
order: it parses first, then indexes. `VmParser.PanicsIff` states exactly
when the program panics.

## Model

| member | source | states |
|---|---|---|
| Text.TrimSpec | src/main.rs:39 | `trim` yields an infix of its input that has only whitespace around it, and that infix neither starts nor ends with whitespace |
| Text.TrimPadded | src/main.rs:42 | a non-empty field that starts and ends with a non-whitespace character comes back unchanged from `trim`, whatever whitespace pads it |
| Text.TrimFixpoint | src/main.rs:42 | `trim` leaves a string unchanged exactly when it neither starts nor ends with whitespace |
| Text.TrimAllWhitespace | src/main.rs:39 | `trim` returns the empty string exactly when its input is empty or all whitespace |
| Text.SplitPiecesFree | src/main.rs:42 | no piece returned by `split(sep)` contains `sep` |
| Text.JoinSplit | src/main.rs:39 | joining the pieces of `split(sep)` with `sep` rebuilds the input |
| Text.SplitJoin | src/main.rs:42 | splitting a join of pieces that do not contain `sep` returns exactly those pieces, empty ones included |
| Text.SplitAround | src/main.rs:65 | splitting `a + sep + b` is the pieces of `a` followed by the pieces of `b` |
| Text.SplitWithoutSeparator | src/main.rs:65 | a string without the separator splits into one piece, itself |
| Text.RemoveAllDropsOccurrence | src/main.rs:50-52 | `replace(" MiB", "")` deletes an occurrence and keeps what comes before it, when that prefix contains no character that could start another occurrence |
| Text.RemoveAllUnchanged | src/main.rs:50-52 | a string without the pattern's first character is left unchanged by `replace(pat, "")` |
| Decimal.ParseU64 | src/main.rs:50-53 | `parse::<u64>` succeeds exactly on an optional `+` followed by at least one ASCII digit whose value is at most 2^64 - 1, and then returns that value |
| Decimal.Accumulate | src/main.rs:50-53 | the overflow-checked digit loop fails exactly when the Horner value leaves the `u64` range, and otherwise returns it |
| Decimal.ShiftedValue | src/main.rs:50-53 | the left-to-right digit fold from 0 equals the positional value of the digits |
| Decimal.ParseShow | src/main.rs:50-53 | any `u64` printed in decimal parses back to itself |
| Decimal.ParseRejectsSpace | src/main.rs:53 | a numeral that contains a space does not parse |
| Telemetry.FieldsOfJoin | src/main.rs:42 | splitting a line joined from separator-free pieces and trimming yields one field per piece, each the trimmed piece |
| Telemetry.FieldsAround | src/main.rs:65 | the trimmed fields of `a + sep + b` are those of `a` followed by those of `b` |
| Telemetry.FieldsSingle | src/main.rs:65-67 | a line without the separator has exactly one field, the trimmed line |
| GpuParser.ParseLine | src/main.rs:42-54 | a line is skipped exactly when it has fewer than six fields, and a record built from it carries the given line index |
| GpuParser.LineResults | src/main.rs:41 | lines are judged one by one, each with its own position in the line list |
| GpuParser.CollectFailsIffMalformed | src/main.rs:46-57 | collecting the per-line verdicts fails exactly when some verdict is malformed |
| GpuParser.CollectListsEveryRecord | src/main.rs:41-57 | a successful collection holds the records of all non-skipped lines, in increasing line order, each equal to its line's verdict |
| GpuParser.ParseGpuInfoFailsIffMalformed | src/main.rs:38-58 | `parse_gpu_info` returns `None` exactly when some line has six or more fields and an unreadable number |
| GpuParser.ParseGpuInfoRecords | src/main.rs:38-58 | on success, the records are those of all non-skipped lines, in line order, each indexed by its position in the trimmed output, skipped lines counted |
| GpuParser.CsvLineFields | src/main.rs:42 | a line printed as clean fields joined by ", " splits back into exactly those fields |
| GpuParser.ShownAmount | src/main.rs:50-52 | a memory amount printed with the " MiB" unit reads back as that amount |
| GpuParser.ParseLineOfFields | src/main.rs:46-54 | a line with readable numeric columns yields a record of its line index, its first two trimmed fields and the four numbers |
| GpuParser.WellFormedLineParses | src/main.rs:46-54 | a line whose three memory columns carry " MiB" and whose temperature is bare yields the record with those four numbers |
| GpuParser.PrintedLineParses | src/main.rs:41-54 | a device line printed as `name, driver, total MiB, used MiB, free MiB, temperature` with a clean name and driver parses to the record of exactly those values at the line's position |
| GpuParser.UnreadableColumnVoidsLine | src/main.rs:50-53 | one unreadable memory or temperature column makes a six-field line malformed |
| GpuParser.TemperatureKeepsUnit | src/main.rs:53 | " MiB" is not stripped from the temperature column, so a temperature printed with the unit voids the line |
| GpuParser.BlankOutputYieldsNoRecords | src/main.rs:39-45 | empty or all-whitespace output yields `Some` of the empty list |
| VmParser.ScanAllAppend | src/main.rs:64-86 | the loop over two runs of lines is the loop over the second, started where the first ended |
| VmParser.ScanAllStops | src/main.rs:76-84 | once the loop has returned `None` or panicked, later lines change nothing |
| VmParser.OtherLinesIgnored | src/main.rs:66-68 | a line without a recognised key can be added anywhere without changing the outcome |
| VmParser.QuietRun | src/main.rs:64-88 | if no line ends the loop early, the result is one "Memory" record per "Total Memory" line, and the first record carries the last Used and Free values |
| VmParser.ExpectedAfterTotal | src/main.rs:71-80 | in the records a quiet run ends with, a readable "Total Memory" line appends a record with index 0, name "Memory", driver "0" and used, free and temperature 0 |
| VmParser.ExpectedAfterUsed | src/main.rs:81-82 | in the records a quiet run ends with, a readable "Used Memory" line changes only `memory_used` of record 0 |
| VmParser.ExpectedAfterFree | src/main.rs:83-84 | in the records a quiet run ends with, a readable "Free Memory" line changes only `memory_free` of record 0 |
| VmParser.FirstDecisiveDecides | src/main.rs:76-84 | the first line that ends the loop early decides the outcome: `None` for an unreadable number, a panic for an update before any "Total Memory" line |
| VmParser.PanicsIff | src/main.rs:81-84 | the parser panics exactly when its first early end is a readable Used/Free value that precedes every "Total Memory" line |
| VmParser.UpdatesAfterTotalNeverPanic | src/main.rs:81-84 | output whose Used/Free lines all follow some "Total Memory" line never panics |
| VmParser.ParseSysctlVmInfoSpec | src/main.rs:60-89 | on output that does not panic, the result is `None` exactly when a recognised key has an unreadable value, and is otherwise the expected records |
| VmParser.ColonFreeLineIgnored | src/main.rs:65-68 | a line without ':' is skipped |
| VmParser.KeyValueLine | src/main.rs:65-85 | for any line `key:rest` with a colon-free key, a recognised trimmed key carries the trimmed text of `rest` up to its next ':' parsed as `u64`, and any other key makes the line ignored |
| RingLog.Place | src/main.rs:196-204 | a file that is not full gets the write at its end with the cursor kept; a full file gets the write inside its current length with the cursor moved to `(curr + 1) % max_lines`; the seek never lies past the end and the cursor stays below `max_lines` |
| RingLog.WriteAt | src/main.rs:201-206 | after the seek and `write_all`, the written range holds the entry, the length is the larger of the old length and the write's end, and every other byte is kept (or zero in a gap) |
| RingLog.StepSpec | src/main.rs:193-206 | a short file gets the entry appended and keeps its cursor; a full file keeps its length and every byte outside slot `curr`, holds the entry in slot `curr`, and moves the cursor to `(curr + 1) % max_lines` |
| RingLog.CursorInRange | src/main.rs:202-204 | from the truncated start, the cursor stays in `[0, max_lines)` whatever the entry lengths |
| RingLog.ReplayShape | src/main.rs:193-206 | from the truncated file, with entries of one length E, after n writes the file holds `min(n, max_lines)` entries and the cursor is 0 before the file fills, `n mod max_lines` after |
| RingLog.WriteOffsets | src/main.rs:196-200 | with entries of one length E, write k (from 0) seeks to `(k mod max_lines) * E`: the first `max_lines` writes append in order, and write number `max_lines` goes back to offset 0 |
| RingLog.FileBounded | src/main.rs:196-206 | with entries of one length E, the file never exceeds `max_lines * E` bytes |
| RingLog.MostRecentPresent | src/main.rs:196-206 | with entries of one length E, each of the last `max_lines` entries is intact in the file, entry i in slot `i mod max_lines` |
| RingLog.SlotSurvives | src/main.rs:196-206 | writing the newest entry leaves the slot of each of the previous `max_lines - 1` entries unchanged |
| RingLog.WriteKeepsOthers | src/main.rs:201-206 | a write leaves every byte range it does not overlap as it was |
| SamplingLoop.ParseProbe | src/main.rs:171-175 | the GPU parser never panics and gives records or no records exactly as `parse_gpu_info` does; the memory parser panics exactly on the output the unguarded index reaches, and otherwise gives records or no records exactly as `parse_sysctl_vm_info` does |
| SamplingLoop.WriteAllReplays | src/main.rs:178-206 | writing a cycle's lines one by one continues the replay of everything written before |
| SamplingLoop.RunWrites | src/main.rs:118-225 | a run in which no cycle ends the process writes exactly its logged lines, in order |
| SamplingLoop.RunFromStart | src/main.rs:106-206 | from the truncated file, a run in which no cycle ends the process leaves the file that writing all its logged lines in order would leave |
| SamplingLoop.EndIsFinal | src/main.rs:130-169 | after a panic or an error returned from `main`, the process does nothing more |
| SamplingLoop.GpuCycleEnds | src/main.rs:124-175 | with the GPU backend a cycle ends the process exactly when the probe cannot be launched or its output is not UTF-8 |
| SamplingLoop.RunStopsAtFirstEnd | src/main.rs:124-175 | the first cycle that ends the process decides the run: an unlaunchable probe returns an error from `main`, output that is not UTF-8 or a memory-parser panic leaves the process panicked, and later probes are never taken |
| SamplingLoop.IdleCycleKeepsState | src/main.rs:168-221 | a cycle whose probe fails or whose output does not parse leaves the file and the cursor unchanged |
| SamplingLoop.IdleCycleInvisible | src/main.rs:168-221 | removing such an idle cycle from anywhere in a run does not change the run's outcome |
| SamplingLoop.RunAppend | src/main.rs:118-225 | a run over two stretches of probes is the second stretch started where the first ended |
| SamplingLoop.RunCursorInRange | src/main.rs:202-204 | over any run, the cursor stays in `[0, max_lines)` |
| SamplingLoop.RunKeepsRecentLines | src/main.rs:178-206 | with log lines of one length E and no cycle that ends the process, the file holds at most `max_lines` lines, and the newest `max_lines` lines are all in it, line i in slot `i mod max_lines` |

## Left out

- Running `nvidia-smi` and the `sh`/`sysctl` script (src/main.rs:124-166). These are external processes. Their result is an input to the model (`SamplingLoop.ProbeResult`): not launched, a failure status, output that is not UTF-8, or the standard output as characters.
- Argument parsing with clap (src/main.rs:11-25, 98). `max_lines` is a parameter, and the model requires it to be positive. With `max_lines = 0` the program panics on its first logged record, because `(curr + 1) % max_lines` (src/main.rs:203) divides by zero.
- The platform choice through `cfg!(target_os)` (src/main.rs:100-104). It is the `SamplingLoop.Backend` parameter.
- Reading the clock (src/main.rs:119-122). The timestamp goes into every log line, so the model takes it as an input, `SamplingLoop.Probe.timestamp`. The `expect` on a clock before 1970 is not modelled.
- Opening the log file (src/main.rs:106-112). A failed open panics through `expect` before the loop starts. `SamplingLoop.Start` assumes the open succeeded and the file is truncated to empty.
- The sleep, logger setup, `tracing::info!` with its `f32` percentage, and `eprintln!` (src/main.rs:114, 208-215, 218, 221, 224). They do not affect the log file.
- UTF-8 decoding of the probe output (src/main.rs:169). The model does not decode bytes. Output that fails to decode is the probe result `NotUtf8`, which panics as the `expect` does. Any other output enters the model as a string of characters.
- JSON serialisation through `serde_json::json!` (src/main.rs:179-190). It is a foreign library with its own escaping and key order. The model takes the encoder as a parameter (`SamplingLoop.Encoder`) and treats each line's byte length as whatever the encoder produces.
- I/O errors from `metadata`, `seek` and `write_all` (src/main.rs:193, 201, 206). They end `main` through `?`. The model assumes they succeed.
- The `u64` products `max_lines * entry_length` and `curr * entry_length` (src/main.rs:196-197, 202) are unbounded in the model. The model is exact only while `max_lines * entry_length < 2^64`. `max_lines` is user-supplied, so this can fail: with `max_lines = 2^57`, any line of 128 bytes or more overflows. A debug build then panics. A release build wraps, so the file counts as full too early.
- `usize` and `u64` widths of `curr`, `index` and the parsed numbers. The model uses `nat`. The parser's 2^64 - 1 bound is modelled exactly.
- The ring lemmas about file length and slot positions (`RingLog.ReplayShape`, `RingLog.WriteOffsets`, `RingLog.FileBounded`, `RingLog.MostRecentPresent`) assume every entry has the same length. The program does not enforce this: JSON lines vary with the numbers printed. Of the ring and loop lemmas, these hold without that assumption: `RingLog.Place`, `RingLog.WriteAt`, `RingLog.StepSpec`, `RingLog.WriteKeepsOthers`, `RingLog.CursorInRange`, `SamplingLoop.RunWrites`, `SamplingLoop.RunFromStart`, `SamplingLoop.IdleCycleInvisible` and `SamplingLoop.RunCursorInRange`.
- VmParser.ParseSysctlVmInfoSpec: stated only for output on which the program does not panic. A panic is not a return value. The panicking outputs are characterised separately, by `VmParser.PanicsIff`.

=== FILE: decimal.dfy ===
/**
  Rust's `u64::from_str` (radix 10): an optional single leading '+', then
  one or more ASCII digits, accumulated with overflow-checked multiply and
  add; an empty string, a lone '+', any other character or a value above
  `u64::MAX` is an error.
*/
module Decimal {
  import opened Optional

  const U64_MAX: nat := 0xFFFF_FFFF_FFFF_FFFF

  predicate IsDigit(c: char) {
    '0' <= c <= '9'
  }

  predicate AllDigits(s: string) {
    forall k :: 0 <= k < |s| ==> IsDigit(s[k])
  }

  function DigitValue(c: char): (d: nat)
    requires IsDigit(c)
    ensures d < 10
  {
    (c as int) - ('0' as int)
  }

  function DigitChar(d: nat): (c: char)
    requires d < 10
    ensures IsDigit(c) && DigitValue(c) == d
  {
    (('0' as int) + d) as char
  }

  /** The number a digit string denotes, read most significant digit first. */
  function Value(ds: string): nat
    requires AllDigits(ds)
  {
    if |ds| == 0 then 0 else Value(ds[..|ds| - 1]) * 10 + DigitValue(ds[|ds| - 1])
  }

  /** The digits after the optional leading '+'. */
  function Magnitude(s: string): string {
    if |s| > 0 && s[0] == '+' then s[1..] else s
  }

  /** What `u64::from_str` accepts: a non-empty digit run, in range. */
  predicate IsU64Numeral(s: string) {
    var m := Magnitude(s);
    |m| > 0 && AllDigits(m) && Value(m) <= U64_MAX
  }

  /**
    Horner's rule without bounds: `acc` followed by the digits `ds`, that is
    `acc * 10^|ds| + Value(ds)`.
  */
  function Shifted(acc: nat, ds: string): nat
    requires AllDigits(ds)
    decreases |ds|
  {
    if |ds| == 0 then acc else Shifted(acc * 10 + DigitValue(ds[0]), ds[1..])
  }

  lemma {:induction false} ShiftedAtLeast(acc: nat, ds: string)
    requires AllDigits(ds)
    ensures Shifted(acc, ds) >= acc
    decreases |ds|
  {
    if |ds| > 0 {
      ShiftedAtLeast(acc * 10 + DigitValue(ds[0]), ds[1..]);
    }
  }

  lemma {:induction false} ShiftedAppend(acc: nat, ds: string, c: char)
    requires AllDigits(ds) && IsDigit(c)
    ensures Shifted(acc, ds + [c]) == Shifted(acc, ds) * 10 + DigitValue(c)
    decreases |ds|
  {
    if |ds| > 0 {
      assert (ds + [c])[1..] == ds[1..] + [c];
      ShiftedAppend(acc * 10 + DigitValue(ds[0]), ds[1..], c);
    }
  }

  /** Reading the digits left to right gives the number they denote. */
  lemma {:induction false} ShiftedValue(ds: string)
    requires AllDigits(ds)
    ensures Shifted(0, ds) == Value(ds)
    decreases |ds|
  {
    if |ds| > 0 {
      var init := ds[..|ds| - 1];
      ShiftedValue(init);
      ShiftedAppend(0, init, ds[|ds| - 1]);
      assert init + [ds[|ds| - 1]] == ds;
    }
  }

  /**
    The digit loop of `from_str`: `acc = acc.checked_mul(10)?.checked_add(d)?`
    for each digit in turn. It succeeds exactly when the full number fits.
  */
  function Accumulate(ds: string, acc: nat): (r: Option<nat>)
    requires AllDigits(ds) && acc <= U64_MAX
    ensures r.Some? <==> Shifted(acc, ds) <= U64_MAX
    ensures r.Some? ==> r.value == Shifted(acc, ds)
    decreases |ds|
  {
    if |ds| == 0 then
      Some(acc)
    else
      var d := DigitValue(ds[0]);
      ShiftedAtLeast(acc * 10 + d, ds[1..]);
      if acc * 10 > U64_MAX then
        None
      else if acc * 10 + d > U64_MAX then
        None
      else
        Accumulate(ds[1..], acc * 10 + d)
  }

  /** `u64::from_str` as a total function: `None` stands for `Err(_)`. */
  function ParseU64(s: string): (r: Option<nat>)
    ensures r.Some? <==> IsU64Numeral(s)
    ensures r.Some? ==> r.value == Value(Magnitude(s)) && r.value <= U64_MAX
  {
    var m := Magnitude(s);
    if |m| == 0 then None
    else if !AllDigits(m) then None
    else ShiftedValue(m); Accumulate(m, 0)
  }

  /** The shortest decimal numeral of `n`, as Rust's `Display` writes it. */
  function Show(n: nat): (ds: string)
    ensures |ds| > 0 && AllDigits(ds)
  {
    if n < 10 then [DigitChar(n)] else Show(n / 10) + [DigitChar(n % 10)]
  }

  lemma {:induction false} ShowValue(n: nat)
    ensures Value(Show(n)) == n
  {
    if n >= 10 {
      ShowValue(n / 10);
      assert Show(n)[..|Show(n)| - 1] == Show(n / 10);
    }
  }

  /** Printing a `u64` and parsing it back returns the same number. */
  lemma ParseShow(n: nat)
    requires n <= U64_MAX
    ensures ParseU64(Show(n)) == Some(n)
  {
    ShowValue(n);
    assert Show(n)[0] != '+';
  }

  /** A numeral with a space in it is rejected. */
  lemma ParseRejectsSpace(s: string)
    requires ' ' in s
    ensures ParseU64(s) == None
  {
    var k :| 0 <= k < |s| && s[k] == ' ';
    if |s| > 0 && s[0] == '+' {
      assert Magnitude(s)[k - 1] == ' ';
    } else {
      assert Magnitude(s)[k] == ' ';
    }
  }
}

=== FILE: gpu_parser.dfy ===
/**
  `parse_gpu_info`: one device per line of `nvidia-smi` CSV output, fields
  `name, driver_version, memory.total, memory.used, memory.free,
  temperature.gpu`. Short lines are skipped; one unreadable number voids
  the whole sample.
*/
module GpuParser {
  import opened Optional
  import opened Text
  import opened Decimal
  import opened Telemetry

  const FIELD_COUNT: nat := 6
  const MIB_SUFFIX: string := " MiB"

  /** A memory column: every " MiB" removed, then read as a `u64`. */
  function MemoryField(field: string): Option<nat> {
    ParseU64(RemoveAll(field, MIB_SUFFIX))
  }

  /** What one line contributes. */
  datatype LineResult = Skipped | Malformed | Parsed(info: GpuInfo)

  /** The numeric columns of a line with at least six fields, or `None`. */
  function ParseRecord(data: seq<string>, index: nat): (r: Option<GpuInfo>)
    requires |data| >= FIELD_COUNT
  {
    var total :- MemoryField(data[2]);
    var used :- MemoryField(data[3]);
    var free :- MemoryField(data[4]);
    var temp :- ParseU64(data[5]);
    Some(GpuInfo(index, data[0], data[1], total, used, free, temp))
  }

  function ParseLine(line: string, index: nat): (r: LineResult)
    ensures r.Skipped? <==> |Fields(line, ',')| < FIELD_COUNT
    ensures r.Parsed? ==> r.info.index == index
  {
    var data := Fields(line, ',');
    if |data| < FIELD_COUNT then
      Skipped
    else
      match ParseRecord(data, index)
      case Some(info) => Parsed(info)
      case None => Malformed
  }

  /**
    The verdicts `verdict(lines[j], j)` for `j` from `i` on; with `ParseLine`
    as the verdict, what the loop of `parse_gpu_info` decides line by line.
  */
  function LineResults(lines: seq<string>, i: nat, verdict: (string, nat) -> LineResult): (results: seq<LineResult>)
    requires i <= |lines|
    ensures |results| == |lines| - i
    ensures forall j :: i <= j < |lines| ==> results[j - i] == verdict(lines[j], j)
    decreases |lines| - i
  {
    if i == |lines| then [] else [verdict(lines[i], i)] + LineResults(lines, i + 1, verdict)
  }

  /** A record sits at the position its `index` names. */
  predicate Numbered(results: seq<LineResult>) {
    forall j :: 0 <= j < |results| && results[j].Parsed? ==> results[j].info.index == j
  }

  /**
    The loop of `parse_gpu_info` from line `i` on: skipped lines add
    nothing, a malformed line returns `None` for the whole call, parsed
    records are pushed in line order.
  */
  function Collect(results: seq<LineResult>, i: nat): (r: Option<seq<GpuInfo>>)
    requires i <= |results|
    decreases |results| - i
  {
    if i == |results| then
      Some([])
    else
      match results[i]
      case Malformed => None
      case Skipped => Collect(results, i + 1)
      case Parsed(info) =>
        var rest :- Collect(results, i + 1);
        Some([info] + rest)
  }

  /** The sample is void exactly when some line is malformed. */
  lemma {:induction false} CollectFailsIffMalformed(results: seq<LineResult>, i: nat)
    requires i <= |results|
    ensures Collect(results, i).None? <==> exists j :: i <= j < |results| && results[j].Malformed?
    decreases |results| - i
  {
    if i < |results| {
      CollectFailsIffMalformed(results, i + 1);
    }
  }

  /**
    A successful collection lists, in line order, the record of every line
    that was not skipped, and nothing else.
  */
  lemma {:induction false} CollectListsEveryRecord(results: seq<LineResult>, i: nat)
    requires i <= |results| && Numbered(results)
    requires Collect(results, i).Some?
    ensures var rs := Collect(results, i).value;
            && (forall k :: 0 <= k < |rs| ==>
                  i <= rs[k].index < |results| && results[rs[k].index] == Parsed(rs[k]))
            && (forall k, m :: 0 <= k < m < |rs| ==> rs[k].index < rs[m].index)
            && (forall j :: i <= j < |results| && !results[j].Skipped? ==>
                  exists k :: 0 <= k < |rs| && rs[k].index == j)
    decreases |results| - i
  {
    if i < |results| {
      CollectListsEveryRecord(results, i + 1);
      var rest := Collect(results, i + 1).value;
      match results[i]
      case Skipped =>
      case Parsed(info) =>
        var rs := [info] + rest;
        assert Collect(results, i).value == rs;
        assert forall k :: 0 < k < |rs| ==> rs[k] == rest[k - 1];
        forall j | i <= j < |results| && !results[j].Skipped?
          ensures exists k :: 0 <= k < |rs| && rs[k].index == j
        {
          if j == i {
            assert rs[0].index == j;
          } else {
            var k :| 0 <= k < |rest| && rest[k].index == j;
            assert rs[k + 1].index == j;
          }
        }
    }
  }

  /** The verdict on every line of the trimmed output, by position. */
  function Verdicts(output: string): seq<LineResult> {
    LineResults(OutputLines(output), 0, ParseLine)
  }

  /** `parse_gpu_info`. */
  function ParseGpuInfo(output: string): Option<seq<GpuInfo>> {
    Collect(Verdicts(output), 0)
  }

  lemma VerdictsNumbered(output: string)
    ensures Numbered(Verdicts(output))
  {
    var lines := OutputLines(output);
    var results := Verdicts(output);
    forall j | 0 <= j < |results| && results[j].Parsed?
      ensures results[j].info.index == j
    {
      assert results[j - 0] == ParseLine(lines[j], j);
    }
  }

  /**
    `parse_gpu_info` fails exactly when some line of the trimmed output has
    six or more fields and an unreadable number: one bad line voids the
    sample, and short lines never do.
  */
  lemma ParseGpuInfoFailsIffMalformed(output: string)
    ensures ParseGpuInfo(output).None? <==> exists j :: 0 <= j < |Verdicts(output)| && Verdicts(output)[j].Malformed?
  {
    CollectFailsIffMalformed(Verdicts(output), 0);
  }

  /**
    When `parse_gpu_info` succeeds it lists the records of all lines that
    were not skipped (those with at least six fields), in line order, each
    carrying its line's position in the trimmed output as its index.
  */
  lemma ParseGpuInfoRecords(output: string)
    requires ParseGpuInfo(output).Some?
    ensures var rs := ParseGpuInfo(output).value;
            && (forall k :: 0 <= k < |rs| ==>
                  rs[k].index < |Verdicts(output)| && Verdicts(output)[rs[k].index] == Parsed(rs[k]))
            && (forall k, m :: 0 <= k < m < |rs| ==> rs[k].index < rs[m].index)
            && (forall j :: 0 <= j < |Verdicts(output)| && !Verdicts(output)[j].Skipped? ==>
                  exists k :: 0 <= k < |rs| && rs[k].index == j)
  {
    VerdictsNumbered(output);
    CollectListsEveryRecord(Verdicts(output), 0);
  }

  /** A line as `nvidia-smi --format=csv` prints it: fields joined by ", ". */
  function CsvLine(fields: seq<string>): string
    requires |fields| >= 1
  {
    if |fields| == 1 then fields[0] else fields[0] + ", " + CsvLine(fields[1..])
  }

  /** A field the line splitter hands back untouched. */
  predicate CleanField(f: string) {
    |f| > 0 && IsTrimmed(f) && ',' !in f
  }

  /** Splitting a printed CSV line at ',' and trimming recovers its fields. */
  lemma {:induction false} CsvLineFields(fields: seq<string>)
    requires |fields| >= 1
    requires forall k :: 0 <= k < |fields| ==> CleanField(fields[k])
    ensures Fields(CsvLine(fields), ',') == fields
    decreases |fields|
  {
    TrimFixpoint(fields[0]);
    FieldsSingle(fields[0], ',');
    if |fields| > 1 {
      var tail := CsvLine(fields[1..]);
      assert CsvLine(fields) == fields[0] + [','] + ([' '] + tail);
      FieldsAround(fields[0], ',', [' '] + tail);
      FieldsPadded(' ', ',', tail);
      CsvLineFields(fields[1..]);
      assert fields == [fields[0]] + fields[1..];
    }
  }

  /** A `u64` printed in decimal, with or without the unit, is a clean field. */
  lemma ShownFieldsClean(n: nat)
    ensures CleanField(Show(n)) && CleanField(Show(n) + MIB_SUFFIX)
  {
    var ds := Show(n);
    var m := ds + MIB_SUFFIX;
    assert m[0] == ds[0] && m[|m| - 1] == 'B';
    assert ',' !in ds;
    assert ',' !in m;
  }

  /** A memory amount printed in decimal with the " MiB" unit reads back as that amount. */
  lemma ShownAmount(n: nat)
    requires n <= U64_MAX
    ensures MemoryField(Show(n) + MIB_SUFFIX) == Some(n)
  {
    var ds := Show(n);
    ParseShow(n);
    assert ' ' !in ds;
    RemoveAllDropsOccurrence(ds, MIB_SUFFIX, "");
    assert ds + MIB_SUFFIX + "" == ds + MIB_SUFFIX;
    assert ds + "" == ds;
  }

  lemma ParseLineOfFields(line: string, index: nat, total: nat, used: nat, free: nat, temp: nat)
    requires var d := Fields(line, ',');
             && |d| >= FIELD_COUNT
             && MemoryField(d[2]) == Some(total) && MemoryField(d[3]) == Some(used)
             && MemoryField(d[4]) == Some(free) && ParseU64(d[5]) == Some(temp)
    ensures var d := Fields(line, ',');
            ParseLine(line, index) == Parsed(GpuInfo(index, d[0], d[1], total, used, free, temp))
  {
  }

  /**
    A device line whose columns are a name, a driver version, three memory
    amounts printed with the " MiB" unit and a bare temperature: the record
    holds the name, the driver, the four numbers and the line's position.
  */
  lemma WellFormedLineParses(line: string, total: nat, used: nat, free: nat, temp: nat, index: nat)
    requires total <= U64_MAX && used <= U64_MAX && free <= U64_MAX && temp <= U64_MAX
    requires var d := Fields(line, ',');
             && |d| >= FIELD_COUNT
             && d[2] == Show(total) + MIB_SUFFIX && d[3] == Show(used) + MIB_SUFFIX
             && d[4] == Show(free) + MIB_SUFFIX && d[5] == Show(temp)
    ensures var d := Fields(line, ',');
            ParseLine(line, index) == Parsed(GpuInfo(index, d[0], d[1], total, used, free, temp))
  {
    ShownAmount(total);
    ShownAmount(used);
    ShownAmount(free);
    ParseShow(temp);
    ParseLineOfFields(line, index, total, used, free, temp);
  }

  /**
    A whole device line as the probe prints it, `name, driver, total MiB,
    used MiB, free MiB, temperature`, parses to the record of exactly
    those values at the line's position.
  */
  lemma PrintedLineParses(name: string, driver: string, total: nat, used: nat, free: nat, temp: nat, index: nat)
    requires CleanField(name) && CleanField(driver)
    requires total <= U64_MAX && used <= U64_MAX && free <= U64_MAX && temp <= U64_MAX
    ensures ParseLine(CsvLine([name, driver, Show(total) + MIB_SUFFIX, Show(used) + MIB_SUFFIX,
                               Show(free) + MIB_SUFFIX, Show(temp)]), index)
         == Parsed(GpuInfo(index, name, driver, total, used, free, temp))
  {
    var fields := [name, driver, Show(total) + MIB_SUFFIX, Show(used) + MIB_SUFFIX,
                   Show(free) + MIB_SUFFIX, Show(temp)];
    ShownFieldsClean(total);
    ShownFieldsClean(used);
    ShownFieldsClean(free);
    ShownFieldsClean(temp);
    CsvLineFields(fields);
    WellFormedLineParses(CsvLine(fields), total, used, free, temp, index);
  }

  /** One unreadable number voids the line, whatever the other columns hold. */
  lemma UnreadableColumnVoidsLine(line: string, index: nat)
    requires var d := Fields(line, ',');
             && |d| >= FIELD_COUNT
             && (MemoryField(d[2]).None? || MemoryField(d[3]).None?
                 || MemoryField(d[4]).None? || ParseU64(d[5]).None?)
    ensures ParseLine(line, index) == Malformed
  {
  }

  /**
    The temperature column is not stripped: a temperature printed with the
    " MiB" unit voids the line.
  */
  lemma TemperatureKeepsUnit(line: string, temp: nat, index: nat)
    requires |Fields(line, ',')| >= FIELD_COUNT
    requires Fields(line, ',')[5] == Show(temp) + MIB_SUFFIX
    ensures ParseLine(line, index) == Malformed
  {
    var t := Show(temp) + MIB_SUFFIX;
    assert t[|Show(temp)|] == ' ';
    ParseRejectsSpace(t);
    UnreadableColumnVoidsLine(line, index);
  }

  /** Output that is empty or all whitespace yields an empty, successful sample. */
  lemma BlankOutputYieldsNoRecords(output: string)
    requires AllWhitespace(output)
    ensures ParseGpuInfo(output) == Some([])
  {
    TrimAllWhitespace(output);
    assert OutputLines(output) == [""];
    FieldsSingle("", ',');
    assert ParseLine("", 0) == Skipped;
    var results := LineResults([""], 0, ParseLine);
    assert results == [Skipped];
    assert Collect(results, 1) == Some([]);
  }
}

=== FILE: optional.dfy ===
/** The `Option` type that stands in for Rust's `Option<T>`. */
module Optional {

  datatype Option<+T> = None | Some(value: T) {

    /** Lets `:-` propagate a `None`, the way Rust's `?` does. */
    predicate IsFailure() {
      None?
    }

    function PropagateFailure<U>(): Option<U>
      requires None?
    {
      None
    }

    function Extract(): T
      requires Some?
    {
      value
    }
  }
}

=== FILE: ring_log.dfy ===
/**
  The log file as a ring of fixed-size slots. Each serialised record is
  written either at the end of the file (while it holds fewer than
  `maxLines` entries' worth of bytes) or over slot `curr`, after which the
  cursor moves on modulo `maxLines`. The file is opened truncated and the
  cursor starts at 0.
*/
module RingLog {

  newtype byte = x: int | 0 <= x < 256

  function Max(a: nat, b: nat): nat {
    if a >= b then a else b
  }

  function Min(a: nat, b: nat): nat {
    if a <= b then a else b
  }

  /** The file's bytes and the slot the next overwrite goes to. */
  datatype Ring = Ring(file: seq<byte>, curr: nat)

  /** The state right after the file is opened with truncation. */
  const Opened: Ring := Ring([], 0)

  /** Where one write of `entryLength` bytes goes and the cursor after it. */
  datatype Placement = Placement(offset: nat, curr: nat)

  /** The file already holds `maxLines` entries' worth of bytes. */
  predicate Full(fileLength: nat, maxLines: nat, entryLength: nat) {
    fileLength >= maxLines * entryLength
  }

  /**
    The seek position and the next cursor. `maxLines` must be positive:
    the cursor update divides by it.
  */
  function Place(fileLength: nat, curr: nat, maxLines: nat, entryLength: nat): (p: Placement)
    requires maxLines > 0
    ensures p.curr < maxLines || p.curr == curr
    ensures Full(fileLength, maxLines, entryLength) && curr < maxLines ==>
              p.offset + entryLength <= fileLength && p.curr == (curr + 1) % maxLines
    ensures !Full(fileLength, maxLines, entryLength) ==> p.offset == fileLength && p.curr == curr
  {
    if Full(fileLength, maxLines, entryLength) then
      SlotFits(curr, maxLines, entryLength);
      Placement(curr * entryLength, (curr + 1) % maxLines)
    else
      Placement(fileLength, curr)
  }

  /** Slot `k` of a ring with `maxLines` slots ends within the full length. */
  lemma SlotFits(k: nat, maxLines: nat, entryLength: nat)
    ensures k < maxLines ==> k * entryLength + entryLength <= maxLines * entryLength
  {
    if k < maxLines {
      SlotsOrdered(k, maxLines, entryLength);
    }
  }

  lemma NextSlot(a: nat, entryLength: nat)
    ensures (a + 1) * entryLength == a * entryLength + entryLength
  {
  }

  /** Distinct slots do not overlap: slot `a` ends no later than slot `b` starts. */
  lemma {:induction false} SlotsOrdered(a: nat, b: nat, entryLength: nat)
    requires a < b
    ensures a * entryLength + entryLength <= b * entryLength
    decreases b - a
  {
    NextSlot(a, entryLength);
    if a + 1 < b {
      SlotsOrdered(a + 1, b, entryLength);
    }
  }

  function Zeros(n: nat): (z: seq<byte>)
    ensures |z| == n
    ensures forall i :: 0 <= i < n ==> z[i] == 0
  {
    seq(n, _ => 0 as byte)
  }

  /**
    Seek to `offset` and write `data`: the bytes at `offset` become `data`,
    a seek past the end leaves a zero-filled gap, and every other byte is
    kept.
  */
  function WriteAt(file: seq<byte>, offset: nat, data: seq<byte>): (r: seq<byte>)
    ensures |r| == Max(|file|, offset + |data|)
    ensures r[offset..offset + |data|] == data
    ensures forall j :: 0 <= j < |r| && !(offset <= j < offset + |data|) ==>
                          r[j] == (if j < |file| then file[j] else 0)
  {
    var padded := if offset <= |file| then file else file + Zeros(offset - |file|);
    var tail := if offset + |data| < |padded| then padded[offset + |data|..] else [];
    padded[..offset] + data + tail
  }

  /** One logged record: place it, seek, advance the cursor, write. */
  function Step(ring: Ring, maxLines: nat, entry: seq<byte>): (r: Ring)
    requires maxLines > 0
    ensures ring.curr < maxLines ==> r.curr < maxLines
  {
    var p := Place(|ring.file|, ring.curr, maxLines, |entry|);
    Ring(WriteAt(ring.file, p.offset, entry), p.curr)
  }

  /**
    While the file is short the entry is appended and the cursor stays;
    once it is full the entry overwrites slot `curr`, every other byte and
    the length stay, and the cursor moves on.
  */
  lemma StepSpec(ring: Ring, maxLines: nat, entry: seq<byte>)
    requires maxLines > 0 && ring.curr < maxLines
    ensures var r := Step(ring, maxLines, entry);
      && (!Full(|ring.file|, maxLines, |entry|) ==> r.file == ring.file + entry && r.curr == ring.curr)
      && (Full(|ring.file|, maxLines, |entry|) ==>
            && |r.file| == |ring.file|
            && r.curr == (ring.curr + 1) % maxLines
            && r.file[ring.curr * |entry|..ring.curr * |entry| + |entry|] == entry
            && forall j :: 0 <= j < |r.file| && !(ring.curr * |entry| <= j < ring.curr * |entry| + |entry|) ==>
                 r.file[j] == ring.file[j])
  {
    var r := Step(ring, maxLines, entry);
    var p := Place(|ring.file|, ring.curr, maxLines, |entry|);
    assert r.file == WriteAt(ring.file, p.offset, entry);
    if !Full(|ring.file|, maxLines, |entry|) {
      assert r.file == ring.file + entry;
    } else {
      SlotFits(ring.curr, maxLines, |entry|);
    }
  }

  /** The state after logging `entries` in order into a freshly opened file. */
  function Replay(maxLines: nat, entries: seq<seq<byte>>): Ring
    requires maxLines > 0
    decreases |entries|
  {
    if |entries| == 0 then Opened
    else Step(Replay(maxLines, entries[..|entries| - 1]), maxLines, entries[|entries| - 1])
  }

  /** Every entry has `entryLength` bytes. */
  predicate Uniform(entries: seq<seq<byte>>, entryLength: nat) {
    forall i :: 0 <= i < |entries| ==> |entries[i]| == entryLength
  }

  /** The cursor stays in `[0, maxLines)`, whatever the entry lengths. */
  lemma {:induction false} CursorInRange(maxLines: nat, entries: seq<seq<byte>>)
    requires maxLines > 0
    ensures Replay(maxLines, entries).curr < maxLines
    decreases |entries|
  {
    if |entries| > 0 {
      CursorInRange(maxLines, entries[..|entries| - 1]);
    }
  }

  /**
    With entries of one length: the file grows one entry at a time until it
    holds `maxLines` of them and then keeps that length, and the cursor
    stays 0 until the file is full and then counts writes modulo `maxLines`.
  */
  lemma {:induction false} ReplayShape(maxLines: nat, entries: seq<seq<byte>>, entryLength: nat)
    requires maxLines > 0 && entryLength > 0 && Uniform(entries, entryLength)
    ensures |Replay(maxLines, entries).file| == Min(|entries|, maxLines) * entryLength
    ensures Replay(maxLines, entries).curr == if |entries| < maxLines then 0 else |entries| % maxLines
    decreases |entries|
  {
    var n := |entries|;
    if n > 0 {
      var init := entries[..n - 1];
      UniformPrefix(entries, n - 1, entryLength);
      ReplayShape(maxLines, init, entryLength);
      var before := Replay(maxLines, init);
      var after := Replay(maxLines, entries);
      assert after == Step(before, maxLines, entries[n - 1]);
      CursorInRange(maxLines, init);
      StepSpec(before, maxLines, entries[n - 1]);
      if n - 1 < maxLines {
        assert |before.file| == (n - 1) * entryLength;
        SlotsOrdered(n - 1, maxLines, entryLength);
        assert !Full(|before.file|, maxLines, entryLength);
        NextSlot(n - 1, entryLength);
        assert |after.file| == n * entryLength;
        if n == maxLines {
          ModUnique(n, maxLines, 1, 0);
        }
      } else {
        assert |before.file| == maxLines * entryLength;
        assert Full(|before.file|, maxLines, entryLength);
        ModSucc(n - 1, maxLines);
      }
    }
  }

  lemma UniformPrefix(entries: seq<seq<byte>>, k: nat, entryLength: nat)
    requires k <= |entries| && Uniform(entries, entryLength)
    ensures Uniform(entries[..k], entryLength)
  {
    forall i | 0 <= i < k
      ensures |entries[..k][i]| == entryLength
    {
      assert entries[..k][i] == entries[i];
    }
  }

  /** A remainder is fixed by any quotient-remainder decomposition. */
  lemma ModUnique(k: nat, m: nat, q: nat, r: nat)
    requires m > 0 && r < m && k == q * m + r
    ensures k % m == r
  {
    var q2, r2 := k / m, k % m;
    assert k == q2 * m + r2;
    if q2 < q {
      SlotsOrdered(q2, q, m);
    } else if q < q2 {
      SlotsOrdered(q, q2, m);
    }
  }

  lemma ModShift(k: nat, m: nat)
    requires m > 0 && k >= m
    ensures k % m == (k - m) % m
  {
    var q, r := (k - m) / m, (k - m) % m;
    assert k - m == q * m + r;
    NextSlot(q, m);
    ModUnique(k, m, q + 1, r);
  }

  lemma {:induction false} ModSucc(k: nat, m: nat)
    requires m > 0
    ensures (k % m + 1) % m == (k + 1) % m
    decreases k
  {
    if k >= m {
      ModSucc(k - m, m);
      ModShift(k, m);
      ModShift(k + 1, m);
    } else {
      ModUnique(k, m, 0, k);
      if k + 1 == m {
        ModUnique(k + 1, m, 1, 0);
      } else {
        ModUnique(k + 1, m, 0, k + 1);
      }
    }
  }

  /** The seek position of the `k`-th write (0-based). */
  function OffsetOf(maxLines: nat, entries: seq<seq<byte>>, k: nat): nat
    requires maxLines > 0 && k < |entries|
  {
    var before := Replay(maxLines, entries[..k]);
    Place(|before.file|, before.curr, maxLines, |entries[k]|).offset
  }

  /**
    With entries of one length the `k`-th write lands in slot `k mod
    maxLines`: the first `maxLines` writes fill slots 0, 1, … in order and
    write number `maxLines` goes back to offset 0.
  */
  lemma WriteOffsets(maxLines: nat, entries: seq<seq<byte>>, entryLength: nat, k: nat)
    requires maxLines > 0 && entryLength > 0 && Uniform(entries, entryLength) && k < |entries|
    ensures OffsetOf(maxLines, entries, k) == (k % maxLines) * entryLength
  {
    var pre := entries[..k];
    UniformPrefix(entries, k, entryLength);
    ReplayShape(maxLines, pre, entryLength);
    var before := Replay(maxLines, pre);
    var p := Place(|before.file|, before.curr, maxLines, |entries[k]|);
    assert OffsetOf(maxLines, entries, k) == p.offset;
    if k < maxLines {
      assert |before.file| == k * entryLength;
      SlotsOrdered(k, maxLines, entryLength);
      assert !Full(|before.file|, maxLines, entryLength);
      ModUnique(k, maxLines, 0, k);
    } else {
      assert |before.file| == maxLines * entryLength;
      assert Full(|before.file|, maxLines, entryLength);
    }
  }

  /** The file never holds more than `maxLines` entries' worth of bytes. */
  lemma FileBounded(maxLines: nat, entries: seq<seq<byte>>, entryLength: nat)
    requires maxLines > 0 && entryLength > 0 && Uniform(entries, entryLength)
    ensures |Replay(maxLines, entries).file| <= maxLines * entryLength
  {
    ReplayShape(maxLines, entries, entryLength);
    if |entries| < maxLines {
      SlotsOrdered(|entries|, maxLines, entryLength);
    }
  }

  /** Bytes `[k * entryLength, (k + 1) * entryLength)` of `file`. */
  function Slot(file: seq<byte>, k: nat, entryLength: nat): seq<byte>
    requires k * entryLength + entryLength <= |file|
  {
    file[k * entryLength..k * entryLength + entryLength]
  }

  /**
    With entries of one length the last `maxLines` entries are all in the
    file, entry `i` in slot `i mod maxLines`.
  */
  lemma {:induction false} MostRecentPresent(maxLines: nat, entries: seq<seq<byte>>, entryLength: nat, i: nat)
    requires maxLines > 0 && entryLength > 0 && Uniform(entries, entryLength)
    requires i < |entries| && |entries| <= i + maxLines
    ensures (i % maxLines) * entryLength + entryLength <= |Replay(maxLines, entries).file|
    ensures Slot(Replay(maxLines, entries).file, i % maxLines, entryLength) == entries[i]
    decreases |entries|
  {
    var n := |entries|;
    SlotInFile(maxLines, entries, entryLength, i);
    if i < n - 1 {
      UniformPrefix(entries, n - 1, entryLength);
      MostRecentPresent(maxLines, entries[..n - 1], entryLength, i);
      SlotSurvives(maxLines, entries, entryLength, i);
    } else {
      NewestInSlot(maxLines, entries, entryLength);
    }
  }

  /** The newest entry sits in its slot right after it is written. */
  lemma NewestInSlot(maxLines: nat, entries: seq<seq<byte>>, entryLength: nat)
    requires maxLines > 0 && entryLength > 0 && Uniform(entries, entryLength) && |entries| > 0
    ensures var k := (|entries| - 1) % maxLines;
      && k * entryLength + entryLength <= |Replay(maxLines, entries).file|
      && Slot(Replay(maxLines, entries).file, k, entryLength) == entries[|entries| - 1]
  {
    SlotInFile(maxLines, entries, entryLength, |entries| - 1);
    LastWrite(maxLines, entries, entryLength);
  }

  /** A write into another slot keeps slot `i mod maxLines` as it was. */
  lemma SlotSurvives(maxLines: nat, entries: seq<seq<byte>>, entryLength: nat, i: nat)
    requires maxLines > 0 && entryLength > 0 && Uniform(entries, entryLength)
    requires i + 1 < |entries| && |entries| <= i + maxLines
    ensures (i % maxLines) * entryLength + entryLength <= |Replay(maxLines, entries[..|entries| - 1]).file|
    ensures (i % maxLines) * entryLength + entryLength <= |Replay(maxLines, entries).file|
    ensures Slot(Replay(maxLines, entries).file, i % maxLines, entryLength)
         == Slot(Replay(maxLines, entries[..|entries| - 1]).file, i % maxLines, entryLength)
  {
    var n := |entries|;
    var before := Replay(maxLines, entries[..n - 1]).file;
    var w := ((n - 1) % maxLines) * entryLength;
    var s := (i % maxLines) * entryLength;
    UniformPrefix(entries, n - 1, entryLength);
    SlotInFile(maxLines, entries[..n - 1], entryLength, i);
    LastWrite(maxLines, entries, entryLength);
    SlotInFile(maxLines, entries, entryLength, i);
    DistinctResidues(i, n - 1, maxLines);
    SlotsDisjoint(i % maxLines, (n - 1) % maxLines, entryLength);
    assert |entries[n - 1]| == entryLength;
    WriteKeepsOthers(before, w, entries[n - 1], s, entryLength);
  }

  /** The newest entry is written into slot `(n - 1) mod maxLines` of the previous file. */
  lemma LastWrite(maxLines: nat, entries: seq<seq<byte>>, entryLength: nat)
    requires maxLines > 0 && entryLength > 0 && Uniform(entries, entryLength) && |entries| > 0
    ensures var n := |entries|;
      Replay(maxLines, entries).file
        == WriteAt(Replay(maxLines, entries[..n - 1]).file, ((n - 1) % maxLines) * entryLength, entries[n - 1])
  {
    WriteOffsets(maxLines, entries, entryLength, |entries| - 1);
  }

  /** Distinct slots do not overlap. */
  lemma SlotsDisjoint(a: nat, b: nat, entryLength: nat)
    requires a != b
    ensures a * entryLength + entryLength <= b * entryLength || b * entryLength + entryLength <= a * entryLength
  {
    if a < b {
      SlotsOrdered(a, b, entryLength);
    } else {
      SlotsOrdered(b, a, entryLength);
    }
  }

  /** A write leaves every byte range it does not overlap as it was. */
  lemma WriteKeepsOthers(file: seq<byte>, offset: nat, data: seq<byte>, start: nat, len: nat)
    requires start + len <= |file|
    requires offset + |data| <= start || start + len <= offset
    ensures WriteAt(file, offset, data)[start..start + len] == file[start..start + len]
  {
    var r := WriteAt(file, offset, data);
    forall j | start <= j < start + len
      ensures r[j] == file[j]
    {
    }
  }

  /** Slot `i mod maxLines` lies inside the file after entry `i` has been written. */
  lemma SlotInFile(maxLines: nat, entries: seq<seq<byte>>, entryLength: nat, i: nat)
    requires maxLines > 0 && entryLength > 0 && Uniform(entries, entryLength) && i < |entries|
    ensures (i % maxLines) * entryLength + entryLength <= |Replay(maxLines, entries).file|
  {
    ReplayShape(maxLines, entries, entryLength);
    if |entries| <= maxLines {
      ModUnique(i, maxLines, 0, i);
      SlotsOrdered(i, |entries|, entryLength);
    } else {
      SlotFits(i % maxLines, maxLines, entryLength);
    }
  }

  /** Two positions less than `m` apart have different residues modulo `m`. */
  lemma DistinctResidues(a: nat, b: nat, m: nat)
    requires m > 0 && a < b < a + m
    ensures a % m != b % m
  {
    var qa, qb := a / m, b / m;
    assert a == qa * m + a % m;
    assert b == qb * m + b % m;
    if qa < qb {
      SlotsOrdered(qa, qb, m);
    } else if qb < qa {
      SlotsOrdered(qb, qa, m);
    }
  }
}

=== FILE: sampling_loop.dfy ===
/**
  The sampling loop of `main`: each cycle probes the device, parses the
  output with the platform's parser and logs one serialised line per
  record into the ring. A failed probe or an unparseable output logs
  nothing. A probe that cannot be launched makes `main` return an error,
  and output that is not UTF-8 or a panic in the memory parser makes the
  process panic; either way the loop is over.
*/
module SamplingLoop {
  import opened Optional
  import opened Telemetry
  import GpuParser
  import VmParser
  import opened RingLog

  /** Which probe and parser the platform selects. */
  datatype Backend = Nvidia | VmStat

  /**
    What the external command gave back: it could not be launched, it
    exited with a failure status, it succeeded with standard output that
    is not UTF-8, or it succeeded with `stdout`.
  */
  datatype ProbeResult = NotLaunched | Failed | NotUtf8 | Succeeded(stdout: string)

  /** One cycle's input: the wall-clock seconds and the probe's result. */
  datatype Probe = Probe(timestamp: nat, result: ProbeResult)

  /** What the platform's parser made of the output. */
  datatype Parsed = Records(infos: seq<GpuInfo>) | Unparsed | Panics

  /** The process: still looping over its log file, ended by a panic, or returned an error from `main`. */
  datatype Process = Running(ring: Ring) | Panicked | ReturnedError

  /**
    Serialises one record with its cycle's timestamp into the bytes of one
    log line, newline included.
  */
  type Encoder = (nat, GpuInfo) -> seq<byte>

  function ParseProbe(backend: Backend, stdout: string): (p: Parsed)
    ensures backend == Nvidia ==> !p.Panics?
    ensures backend == Nvidia && p.Records? ==> GpuParser.ParseGpuInfo(stdout) == Some(p.infos)
    ensures backend == Nvidia ==> (p.Unparsed? <==> GpuParser.ParseGpuInfo(stdout).None?)
    ensures backend == VmStat && p.Records? ==> !VmParser.SysctlPanics(stdout) && VmParser.ParseSysctlVmInfo(stdout) == Some(p.infos)
    ensures backend == VmStat ==> (p.Panics? <==> VmParser.SysctlPanics(stdout))
    ensures backend == VmStat && !VmParser.SysctlPanics(stdout) ==> (p.Unparsed? <==> VmParser.ParseSysctlVmInfo(stdout).None?)
  {
    match backend
    case Nvidia =>
      (match GpuParser.ParseGpuInfo(stdout)
       case Some(infos) => Records(infos)
       case None => Unparsed)
    case VmStat =>
      if VmParser.SysctlPanics(stdout) then Panics
      else
        (match VmParser.ParseSysctlVmInfo(stdout)
         case Some(infos) => Records(infos)
         case None => Unparsed)
  }

  /** The platform's parser, as the loop applies it to each probe's output. */
  function Parser(backend: Backend): string -> Parsed {
    stdout => ParseProbe(backend, stdout)
  }

  /** The log lines of one sample, in record order. */
  function LogLines(timestamp: nat, infos: seq<GpuInfo>, encode: Encoder): (lines: seq<seq<byte>>)
    ensures |lines| == |infos|
    ensures forall k :: 0 <= k < |infos| ==> lines[k] == encode(timestamp, infos[k])
  {
    seq(|infos|, k requires 0 <= k < |infos| => encode(timestamp, infos[k]))
  }

  /** The ring after writing `entries` one after another. */
  function WriteAll(ring: Ring, maxLines: nat, entries: seq<seq<byte>>): (r: Ring)
    requires maxLines > 0
    ensures ring.curr < maxLines ==> r.curr < maxLines
    decreases |entries|
  {
    if |entries| == 0 then ring
    else WriteAll(Step(ring, maxLines, entries[0]), maxLines, entries[1..])
  }

  /** The lines one cycle writes: none when the probe fails or its output does not parse. */
  function CycleLines(parse: string -> Parsed, probe: Probe, encode: Encoder): seq<seq<byte>> {
    match probe.result
    case Succeeded(stdout) =>
      (match parse(stdout)
       case Records(infos) => LogLines(probe.timestamp, infos, encode)
       case _ => [])
    case _ => []
  }

  /**
    The cycle panics: the output is not UTF-8, or it reaches the memory
    parser's unguarded index.
  */
  predicate CyclePanics(parse: string -> Parsed, probe: Probe) {
    probe.result.NotUtf8? || (probe.result.Succeeded? && parse(probe.result.stdout).Panics?)
  }

  /** The cycle ends the process: the probe cannot be launched, or the cycle panics. */
  predicate CycleEnds(parse: string -> Parsed, probe: Probe) {
    probe.result.NotLaunched? || CyclePanics(parse, probe)
  }

  /** How a cycle that ends the process ends it. */
  function Ending(probe: Probe): Process {
    if probe.result.NotLaunched? then ReturnedError else Panicked
  }

  /** One turn of the loop. */
  function Cycle(st: Process, maxLines: nat, parse: string -> Parsed, probe: Probe, encode: Encoder): Process
    requires maxLines > 0
  {
    match st
    case Running(ring) =>
      if CycleEnds(parse, probe) then Ending(probe)
      else Running(WriteAll(ring, maxLines, CycleLines(parse, probe, encode)))
    case _ => st
  }

  /** The loop over `probes`, in order, from state `st`. */
  function Run(st: Process, maxLines: nat, parse: string -> Parsed, probes: seq<Probe>, encode: Encoder): Process
    requires maxLines > 0
    decreases |probes|
  {
    if |probes| == 0 then st
    else Run(Cycle(st, maxLines, parse, probes[0], encode), maxLines, parse, probes[1..], encode)
  }

  /** The process starts on a truncated file with the cursor at 0. */
  const Start: Process := Running(Opened)

  /** Every line the run logs, cycle after cycle. */
  function Logged(parse: string -> Parsed, probes: seq<Probe>, encode: Encoder): seq<seq<byte>>
    decreases |probes|
  {
    if |probes| == 0 then []
    else CycleLines(parse, probes[0], encode) + Logged(parse, probes[1..], encode)
  }

  /** No cycle of the run ends the process. */
  predicate NeverEnds(parse: string -> Parsed, probes: seq<Probe>) {
    forall k :: 0 <= k < |probes| ==> !CycleEnds(parse, probes[k])
  }

  /** A cycle logs nothing and changes nothing: the probe failed or its output did not parse. */
  predicate Idle(parse: string -> Parsed, probe: Probe) {
    match probe.result
    case Failed => true
    case Succeeded(stdout) => parse(stdout).Unparsed?
    case _ => false
  }

  // ---------------------------------------------------------------------
  // Lemmas.
  // ---------------------------------------------------------------------

  lemma ReplaySnoc(maxLines: nat, prev: seq<seq<byte>>, e: seq<byte>)
    requires maxLines > 0
    ensures Replay(maxLines, prev + [e]) == Step(Replay(maxLines, prev), maxLines, e)
  {
    assert (prev + [e])[..|prev|] == prev;
  }

  /** Writing entries one by one continues the replay of everything written before. */
  lemma {:induction false} WriteAllReplays(maxLines: nat, prev: seq<seq<byte>>, entries: seq<seq<byte>>)
    requires maxLines > 0
    ensures WriteAll(Replay(maxLines, prev), maxLines, entries) == Replay(maxLines, prev + entries)
    decreases |entries|
  {
    if |entries| == 0 {
      assert prev + entries == prev;
    } else {
      ReplaySnoc(maxLines, prev, entries[0]);
      WriteAllReplays(maxLines, prev + [entries[0]], entries[1..]);
      assert prev + [entries[0]] + entries[1..] == prev + entries;
    }
  }

  lemma {:induction false} WriteAllAppend(ring: Ring, maxLines: nat, a: seq<seq<byte>>, b: seq<seq<byte>>)
    requires maxLines > 0
    ensures WriteAll(ring, maxLines, a + b) == WriteAll(WriteAll(ring, maxLines, a), maxLines, b)
    decreases |a|
  {
    if |a| == 0 {
      assert a + b == b;
    } else {
      assert (a + b)[1..] == a[1..] + b;
      WriteAllAppend(Step(ring, maxLines, a[0]), maxLines, a[1..], b);
    }
  }

  /** A run that never ends the process writes its logged lines in order and nothing else. */
  lemma {:induction false} RunWrites(ring: Ring, maxLines: nat, parse: string -> Parsed, probes: seq<Probe>, encode: Encoder)
    requires maxLines > 0 && NeverEnds(parse, probes)
    ensures Run(Running(ring), maxLines, parse, probes, encode)
         == Running(WriteAll(ring, maxLines, Logged(parse, probes, encode)))
    decreases |probes|
  {
    if |probes| > 0 {
      var lines := CycleLines(parse, probes[0], encode);
      assert !CycleEnds(parse, probes[0]);
      assert NeverEnds(parse, probes[1..]) by {
        forall k | 0 <= k < |probes| - 1
          ensures !CycleEnds(parse, probes[1..][k])
        {
          assert probes[1..][k] == probes[k + 1];
        }
      }
      RunWrites(WriteAll(ring, maxLines, lines), maxLines, parse, probes[1..], encode);
      WriteAllAppend(ring, maxLines, lines, Logged(parse, probes[1..], encode));
    }
  }

  /**
    From the start, a run that never ends the process leaves the file
    exactly as writing all of its logged lines, in order, into a freshly opened file
    would.
  */
  lemma RunFromStart(maxLines: nat, parse: string -> Parsed, probes: seq<Probe>, encode: Encoder)
    requires maxLines > 0 && NeverEnds(parse, probes)
    ensures Run(Start, maxLines, parse, probes, encode)
         == Running(Replay(maxLines, Logged(parse, probes, encode)))
  {
    RunWrites(Opened, maxLines, parse, probes, encode);
    WriteAllReplays(maxLines, [], Logged(parse, probes, encode));
    assert [] + Logged(parse, probes, encode) == Logged(parse, probes, encode);
  }

  /**
    With the GPU backend a cycle ends the process only when the probe
    cannot be launched or its output is not UTF-8: the GPU parser never
    panics.
  */
  lemma GpuCycleEnds(probe: Probe)
    ensures CycleEnds(Parser(Nvidia), probe) <==> probe.result.NotLaunched? || probe.result.NotUtf8?
  {
    if probe.result.Succeeded? {
      assert !ParseProbe(Nvidia, probe.result.stdout).Panics?;
    }
  }

  /** Once ended, by a panic or by an error returned from `main`, the process stays ended. */
  lemma {:induction false} EndIsFinal(st: Process, maxLines: nat, parse: string -> Parsed, probes: seq<Probe>, encode: Encoder)
    requires maxLines > 0 && !st.Running?
    ensures Run(st, maxLines, parse, probes, encode) == st
    decreases |probes|
  {
    if |probes| > 0 {
      EndIsFinal(st, maxLines, parse, probes[1..], encode);
    }
  }

  /**
    The first cycle that ends the process decides the run: an unlaunchable
    probe returns an error from `main`, a panic leaves the process
    panicked, and the probes after it are never taken.
  */
  lemma RunStopsAtFirstEnd(ring: Ring, maxLines: nat, parse: string -> Parsed, probes: seq<Probe>, encode: Encoder, k: nat)
    requires maxLines > 0 && k < |probes|
    requires NeverEnds(parse, probes[..k]) && CycleEnds(parse, probes[k])
    ensures Run(Running(ring), maxLines, parse, probes, encode)
         == (if probes[k].result.NotLaunched? then ReturnedError else Panicked)
  {
    assert probes == probes[..k] + ([probes[k]] + probes[k + 1..]);
    RunAppend(Running(ring), maxLines, parse, probes[..k], [probes[k]] + probes[k + 1..], encode);
    RunWrites(ring, maxLines, parse, probes[..k], encode);
    var mid := Running(WriteAll(ring, maxLines, Logged(parse, probes[..k], encode)));
    RunAppend(mid, maxLines, parse, [probes[k]], probes[k + 1..], encode);
    EndIsFinal(Ending(probes[k]), maxLines, parse, probes[k + 1..], encode);
  }

  /** An idle cycle leaves the state as it was. */
  lemma IdleCycleKeepsState(st: Process, maxLines: nat, parse: string -> Parsed, probe: Probe, encode: Encoder)
    requires maxLines > 0 && Idle(parse, probe)
    ensures Cycle(st, maxLines, parse, probe, encode) == st
  {
  }

  lemma {:induction false} RunAppend(st: Process, maxLines: nat, parse: string -> Parsed, a: seq<Probe>, b: seq<Probe>, encode: Encoder)
    requires maxLines > 0
    ensures Run(st, maxLines, parse, a + b, encode)
         == Run(Run(st, maxLines, parse, a, encode), maxLines, parse, b, encode)
    decreases |a|
  {
    if |a| == 0 {
      assert a + b == b;
    } else {
      assert (a + b)[1..] == a[1..] + b;
      RunAppend(Cycle(st, maxLines, parse, a[0], encode), maxLines, parse, a[1..], b, encode);
    }
  }

  /** Removing an idle cycle from anywhere in a run changes nothing. */
  lemma IdleCycleInvisible(st: Process, maxLines: nat, parse: string -> Parsed, a: seq<Probe>, probe: Probe, b: seq<Probe>, encode: Encoder)
    requires maxLines > 0 && Idle(parse, probe)
    ensures Run(st, maxLines, parse, a + [probe] + b, encode) == Run(st, maxLines, parse, a + b, encode)
  {
    RunAppend(st, maxLines, parse, a + [probe], b, encode);
    RunAppend(st, maxLines, parse, a, [probe], encode);
    RunAppend(st, maxLines, parse, a, b, encode);
    IdleCycleKeepsState(Run(st, maxLines, parse, a, encode), maxLines, parse, probe, encode);
  }

  /** The cursor stays in `[0, maxLines)` over any run from the start. */
  lemma {:induction false} RunCursorInRange(st: Process, maxLines: nat, parse: string -> Parsed, probes: seq<Probe>, encode: Encoder)
    requires maxLines > 0 && (st.Running? ==> st.ring.curr < maxLines)
    ensures var r := Run(st, maxLines, parse, probes, encode);
      r.Running? ==> r.ring.curr < maxLines
    decreases |probes|
  {
    if |probes| > 0 {
      RunCursorInRange(Cycle(st, maxLines, parse, probes[0], encode), maxLines, parse, probes[1..], encode);
    }
  }

  /**
    When every logged line has the same length, the file of a run that
    never ends the process never holds more than `maxLines` lines, and the newest
    `maxLines` lines are all in it, line `i` in slot `i mod maxLines`.
  */
  lemma RunKeepsRecentLines(maxLines: nat, parse: string -> Parsed, probes: seq<Probe>, encode: Encoder, entryLength: nat, i: nat)
    requires maxLines > 0 && entryLength > 0 && NeverEnds(parse, probes)
    requires Uniform(Logged(parse, probes, encode), entryLength)
    requires i < |Logged(parse, probes, encode)| <= i + maxLines
    ensures Run(Start, maxLines, parse, probes, encode).Running?
    ensures |Run(Start, maxLines, parse, probes, encode).ring.file| <= maxLines * entryLength
    ensures (i % maxLines) * entryLength + entryLength <= |Run(Start, maxLines, parse, probes, encode).ring.file|
    ensures Slot(Run(Start, maxLines, parse, probes, encode).ring.file, i % maxLines, entryLength)
         == Logged(parse, probes, encode)[i]
  {
    RunFromStart(maxLines, parse, probes, encode);
    FileBounded(maxLines, Logged(parse, probes, encode), entryLength);
    MostRecentPresent(maxLines, Logged(parse, probes, encode), entryLength, i);
  }
}

=== FILE: telemetry.dfy ===
/**
  The record both probe parsers produce (`GpuInfo` in the program) and the
  line/field splitting they share.
*/
module Telemetry {
  import opened Text

  /**
    One normalised sample. The memory backend reuses the shape with
    sentinels: name "Memory", driver "0", temperature 0.
  */
  datatype GpuInfo = GpuInfo(
    index: nat,
    name: string,
    driverVersion: string,
    memoryTotal: nat,
    memoryUsed: nat,
    memoryFree: nat,
    temperature: nat)

  /** `output.trim().split('\n')`: the lines both parsers walk over. */
  function OutputLines(output: string): (lines: seq<string>)
    ensures |lines| >= 1
  {
    Split(Trim(output), '\n')
  }

  /** Each piece with `Trim` applied, in order. */
  function TrimEach(pieces: seq<string>): (data: seq<string>)
    ensures |data| == |pieces|
  {
    if |pieces| == 0 then [] else [Trim(pieces[0])] + TrimEach(pieces[1..])
  }

  /** `line.split(sep).map(|s| s.trim())`: the fields of one line. */
  function Fields(line: string, sep: char): seq<string>
  {
    TrimEach(Split(line, sep))
  }

  lemma {:induction false} TrimEachAt(pieces: seq<string>, k: nat)
    requires k < |pieces|
    ensures TrimEach(pieces)[k] == Trim(pieces[k])
    decreases k
  {
    if k > 0 {
      TrimEachAt(pieces[1..], k - 1);
    }
  }

  /** The fields of a line joined from separator-free pieces are those pieces, trimmed. */
  lemma FieldsOfJoin(pieces: seq<string>, sep: char)
    requires |pieces| >= 1
    requires forall k :: 0 <= k < |pieces| ==> sep !in pieces[k]
    ensures |Fields(Join(pieces, sep), sep)| == |pieces|
    ensures forall k :: 0 <= k < |pieces| ==> Fields(Join(pieces, sep), sep)[k] == Trim(pieces[k])
  {
    SplitJoin(pieces, sep);
    forall k | 0 <= k < |pieces|
      ensures Fields(Join(pieces, sep), sep)[k] == Trim(pieces[k])
    {
      TrimEachAt(pieces, k);
    }
  }

  lemma {:induction false} TrimEachAppend(xs: seq<string>, ys: seq<string>)
    ensures TrimEach(xs + ys) == TrimEach(xs) + TrimEach(ys)
    decreases |xs|
  {
    if |xs| > 0 {
      assert (xs + ys)[1..] == xs[1..] + ys;
      TrimEachAppend(xs[1..], ys);
    } else {
      assert xs + ys == ys;
    }
  }

  /** Fields are cut at every separator. */
  lemma FieldsAround(a: string, sep: char, b: string)
    ensures Fields(a + [sep] + b, sep) == Fields(a, sep) + Fields(b, sep)
  {
    SplitAround(a, sep, b);
    TrimEachAppend(Split(a, sep), Split(b, sep));
  }

  /** A separator-free line is one field, trimmed. */
  lemma FieldsSingle(a: string, sep: char)
    requires sep !in a
    ensures Fields(a, sep) == [Trim(a)]
  {
    SplitWithoutSeparator(a, sep);
  }

  /** Whitespace in front of a line changes none of its fields. */
  lemma FieldsPadded(c: char, sep: char, b: string)
    requires IsWhitespace(c) && c != sep
    ensures Fields([c] + b, sep) == Fields(b, sep)
  {
    var s := [c] + b;
    assert s[1..] == b;
    var rest := Split(b, sep);
    assert Split(s, sep) == [[c] + rest[0]] + rest[1..];
    assert Split(b, sep) == [rest[0]] + rest[1..];
    assert TrimStart([c] + rest[0]) == TrimStart(rest[0]) by {
      assert ([c] + rest[0])[1..] == rest[0];
    }
    TrimEachAppend([[c] + rest[0]], rest[1..]);
    TrimEachAppend([rest[0]], rest[1..]);
  }
}

=== FILE: text.dfy ===
/**
  The three `str` operations the probe parsers rely on, with Rust's
  semantics: `trim` (Unicode whitespace at both ends), `split` on a single
  character (always at least one piece; empty pieces kept) and
  `replace(pat, "")` (left-to-right, non-overlapping removal).
*/
module Text {

  /** Rust's `char::is_whitespace`: the Unicode White_Space property. */
  predicate IsWhitespace(c: char) {
    || ('\t' <= c <= '\r')
    || c == ' '
    || c == '\U{85}'
    || c == '\U{A0}'
    || c == '\U{1680}'
    || ('\U{2000}' <= c <= '\U{200A}')
    || c == '\U{2028}'
    || c == '\U{2029}'
    || c == '\U{202F}'
    || c == '\U{205F}'
    || c == '\U{3000}'
  }

  predicate AllWhitespace(s: string) {
    forall k :: 0 <= k < |s| ==> IsWhitespace(s[k])
  }

  /** Neither end of `s` is whitespace: what `trim` leaves behind. */
  predicate IsTrimmed(s: string) {
    |s| == 0 || (!IsWhitespace(s[0]) && !IsWhitespace(s[|s| - 1]))
  }

  /** `str::trim_start`: drops leading whitespace. */
  function TrimStart(s: string): string {
    if |s| > 0 && IsWhitespace(s[0]) then TrimStart(s[1..]) else s
  }

  /** `str::trim_end`: drops trailing whitespace. */
  function TrimEnd(s: string): string {
    if |s| > 0 && IsWhitespace(s[|s| - 1]) then TrimEnd(s[..|s| - 1]) else s
  }

  /** `str::trim`. */
  function Trim(s: string): string {
    TrimEnd(TrimStart(s))
  }

  /** `trim_start` keeps the longest suffix that does not start with whitespace. */
  lemma {:induction false} TrimStartSpec(s: string)
    ensures var r := TrimStart(s);
            && |r| <= |s| && r == s[|s| - |r|..]
            && AllWhitespace(s[..|s| - |r|])
            && (|r| == 0 || !IsWhitespace(r[0]))
    decreases |s|
  {
    if |s| > 0 && IsWhitespace(s[0]) {
      TrimStartSpec(s[1..]);
      var r := TrimStart(s);
      assert s[1..][..|s| - 1 - |r|] == s[1..|s| - |r|];
    }
  }

  /** `trim_end` keeps the longest prefix that does not end with whitespace. */
  lemma {:induction false} TrimEndSpec(s: string)
    ensures var r := TrimEnd(s);
            && |r| <= |s| && r == s[..|r|]
            && AllWhitespace(s[|r|..])
            && (|r| == 0 || !IsWhitespace(r[|r| - 1]))
    decreases |s|
  {
    if |s| > 0 && IsWhitespace(s[|s| - 1]) {
      TrimEndSpec(s[..|s| - 1]);
      var r := TrimEnd(s);
      assert s[..|s| - 1][|r|..] == s[|r|..|s| - 1];
    }
  }

  /**
    `trim` returns a contiguous piece of `s` whose ends are not whitespace,
    and only whitespace was cut off around it.
  */
  lemma TrimSpec(s: string)
    ensures IsTrimmed(Trim(s))
    ensures var r := Trim(s);
            exists i :: 0 <= i <= |s| - |r| && r == s[i..i + |r|]
                        && AllWhitespace(s[..i]) && AllWhitespace(s[i + |r|..])
  {
    var t := TrimStart(s);
    var r := TrimEnd(t);
    TrimStartSpec(s);
    TrimEndSpec(t);
    var i := |s| - |t|;
    assert r == s[i..i + |r|];
    assert s[i + |r|..] == t[|r|..];
    assert |r| > 0 ==> r[0] == t[0];
  }

  lemma {:induction false} TrimStartPadded(pre: string, s: string)
    requires AllWhitespace(pre)
    requires |s| == 0 || !IsWhitespace(s[0])
    ensures TrimStart(pre + s) == s
    decreases |pre|
  {
    if |pre| > 0 {
      assert (pre + s)[1..] == pre[1..] + s;
      TrimStartPadded(pre[1..], s);
    }
  }

  lemma {:induction false} TrimEndPadded(s: string, post: string)
    requires AllWhitespace(post)
    requires |s| == 0 || !IsWhitespace(s[|s| - 1])
    ensures TrimEnd(s + post) == s
    decreases |post|
  {
    if |post| > 0 {
      assert (s + post)[..|s + post| - 1] == s + post[..|post| - 1];
      TrimEndPadded(s, post[..|post| - 1]);
    }
  }

  /** Whitespace around an already trimmed string is exactly what `trim` removes. */
  lemma TrimPadded(pre: string, s: string, post: string)
    requires AllWhitespace(pre) && AllWhitespace(post)
    requires IsTrimmed(s) && |s| > 0
    ensures Trim(pre + s + post) == s
  {
    assert pre + s + post == pre + (s + post);
    TrimStartPadded(pre, s + post);
    TrimEndPadded(s, post);
  }

  /** `trim` leaves a string alone exactly when its ends are not whitespace. */
  lemma TrimFixpoint(s: string)
    ensures Trim(s) == s <==> IsTrimmed(s)
  {
    TrimSpec(s);
    if IsTrimmed(s) && |s| > 0 {
      TrimPadded([], s, []);
      assert [] + s + [] == s;
    }
  }

  /** A string trims to the empty string exactly when it is whitespace only. */
  lemma TrimAllWhitespace(s: string)
    ensures Trim(s) == "" <==> AllWhitespace(s)
  {
    TrimSpec(s);
    if Trim(s) == "" {
      var i :| 0 <= i <= |s| && AllWhitespace(s[..i]) && AllWhitespace(s[i..]);
      forall k | 0 <= k < |s|
        ensures IsWhitespace(s[k])
      {
        if k < i {
          assert s[..i][k] == s[k];
        } else {
          assert s[i..][k - i] == s[k];
        }
      }
    }
  }

  /** `str::split(sep)` for a single-character separator. */
  function Split(s: string, sep: char): (r: seq<string>)
    ensures |r| >= 1
  {
    if |s| == 0 then
      [""]
    else
      var rest := Split(s[1..], sep);
      if s[0] == sep then [""] + rest else [[s[0]] + rest[0]] + rest[1..]
  }

  /** No piece of a split contains the separator. */
  lemma {:induction false} SplitPiecesFree(s: string, sep: char)
    ensures forall k :: 0 <= k < |Split(s, sep)| ==> sep !in Split(s, sep)[k]
    decreases |s|
  {
    if |s| > 0 {
      SplitPiecesFree(s[1..], sep);
      var rest := Split(s[1..], sep);
      if s[0] != sep {
        assert Split(s, sep) == [[s[0]] + rest[0]] + rest[1..];
        assert sep !in [s[0]] + rest[0];
      }
    }
  }

  /** The inverse of `Split`: the pieces glued back with the separator. */
  function Join(pieces: seq<string>, sep: char): string
    requires |pieces| >= 1
  {
    if |pieces| == 1 then pieces[0] else pieces[0] + [sep] + Join(pieces[1..], sep)
  }

  lemma {:induction false} JoinSplit(s: string, sep: char)
    ensures Join(Split(s, sep), sep) == s
    decreases |s|
  {
    if |s| > 0 {
      var rest := Split(s[1..], sep);
      JoinSplit(s[1..], sep);
      if s[0] == sep {
        assert s == [sep] + s[1..];
      } else if |rest| == 1 {
        assert s == [s[0]] + s[1..];
      } else {
        assert s == [s[0]] + s[1..];
        assert rest == [rest[0]] + rest[1..];
      }
    }
  }

  lemma {:induction false} SplitJoin(pieces: seq<string>, sep: char)
    requires |pieces| >= 1
    requires forall k :: 0 <= k < |pieces| ==> sep !in pieces[k]
    ensures Split(Join(pieces, sep), sep) == pieces
    decreases |pieces|, |pieces[0]|
  {
    var p := pieces[0];
    if |p| > 0 {
      var tail := [p[1..]] + pieces[1..];
      assert Join(pieces, sep)[1..] == Join(tail, sep) by {
        if |pieces| > 1 {
          assert Join(tail, sep) == p[1..] + [sep] + Join(pieces[1..], sep);
        }
      }
      assert Join(pieces, sep)[0] == p[0];
      SplitJoin(tail, sep);
      assert [p[0]] + p[1..] == p;
      assert pieces == [p] + pieces[1..];
    } else if |pieces| > 1 {
      assert Join(pieces, sep) == [sep] + Join(pieces[1..], sep);
      assert Join(pieces, sep)[1..] == Join(pieces[1..], sep);
      SplitJoin(pieces[1..], sep);
      assert pieces == [""] + pieces[1..];
    }
  }

  /** `Split` cuts exactly at the separators and nowhere else. */
  lemma SplitAround(a: string, sep: char, b: string)
    ensures Split(a + [sep] + b, sep) == Split(a, sep) + Split(b, sep)
  {
    var pa := Split(a, sep);
    var pb := Split(b, sep);
    JoinSplit(a, sep);
    JoinSplit(b, sep);
    SplitPiecesFree(a, sep);
    SplitPiecesFree(b, sep);
    JoinAppend(pa, pb, sep);
    SplitJoin(pa + pb, sep);
  }

  lemma {:induction false} JoinAppend(xs: seq<string>, ys: seq<string>, sep: char)
    requires |xs| >= 1 && |ys| >= 1
    ensures Join(xs + ys, sep) == Join(xs, sep) + [sep] + Join(ys, sep)
    decreases |xs|
  {
    if |xs| > 1 {
      assert (xs + ys)[1..] == xs[1..] + ys;
      JoinAppend(xs[1..], ys, sep);
    } else {
      assert (xs + ys)[1..] == ys;
    }
  }

  lemma SplitWithoutSeparator(s: string, sep: char)
    requires sep !in s
    ensures Split(s, sep) == [s]
  {
    SplitJoin([s], sep);
  }

  /**
    `s.replace(pat, "")`: scanning left to right, every occurrence of `pat`
    that does not overlap an earlier removed one is dropped.
  */
  function RemoveAll(s: string, pat: string): (r: string)
    requires |pat| > 0
    ensures |r| <= |s|
    decreases |s|
  {
    if |s| < |pat| then s
    else if s[..|pat|] == pat then RemoveAll(s[|pat|..], pat)
    else [s[0]] + RemoveAll(s[1..], pat)
  }

  /** Text free of the pattern's first character passes through unchanged. */
  lemma {:induction false} RemoveAllKeepsPrefix(a: string, rest: string, pat: string)
    requires |pat| > 0 && pat[0] !in a
    ensures RemoveAll(a + rest, pat) == a + RemoveAll(rest, pat)
    decreases |a|
  {
    if |a| > 0 {
      var s := a + rest;
      if |s| >= |pat| {
        assert s[..|pat|][0] == a[0];
        assert s[1..] == a[1..] + rest;
        RemoveAllKeepsPrefix(a[1..], rest, pat);
        assert a == [a[0]] + a[1..];
      } else {
        RemoveAllShort(rest, pat);
      }
    } else {
      assert a + rest == rest;
    }
  }

  lemma RemoveAllShort(s: string, pat: string)
    requires |pat| > 0 && |s| < |pat|
    ensures RemoveAll(s, pat) == s
  {
  }

  lemma RemoveAllUnchanged(s: string, pat: string)
    requires |pat| > 0 && pat[0] !in s
    ensures RemoveAll(s, pat) == s
  {
    RemoveAllKeepsPrefix(s, "", pat);
    assert s + "" == s;
  }

  /** Each occurrence of the pattern is cut out, and nothing around it. */
  lemma RemoveAllDropsOccurrence(a: string, pat: string, b: string)
    requires |pat| > 0 && pat[0] !in a
    ensures RemoveAll(a + pat + b, pat) == a + RemoveAll(b, pat)
  {
    assert a + pat + b == a + (pat + b);
    RemoveAllKeepsPrefix(a, pat + b, pat);
    assert (pat + b)[..|pat|] == pat;
    assert (pat + b)[|pat|..] == b;
  }
}

=== FILE: vm_parser.dfy ===
/**
  `parse_sysctl_vm_info`: "Key: Value" lines from the memory probe folded
  into one synthetic "Memory" record. "Total Memory" pushes a record;
  "Used Memory" and "Free Memory" patch record 0, which the program indexes
  without a guard.
*/
module VmParser {
  import opened Optional
  import opened Text
  import opened Decimal
  import opened Telemetry

  const TOTAL_KEY: string := "Total Memory"
  const USED_KEY: string := "Used Memory"
  const FREE_KEY: string := "Free Memory"
  const MEMORY_NAME: string := "Memory"
  const DRIVER_SENTINEL: string := "0"

  /** The record a "Total Memory" line pushes. */
  function MemoryRecord(total: nat): GpuInfo {
    GpuInfo(0, MEMORY_NAME, DRIVER_SENTINEL, total, 0, 0, 0)
  }

  /**
    What a line says, judged by its first two ':'-separated fields: a
    recognised key with its value read as a `u64` (None when unreadable),
    or anything else.
  */
  datatype Entry = Other | Total(value: Option<nat>) | Used(value: Option<nat>) | Free(value: Option<nat>)

  function Classify(line: string): Entry {
    var data := Fields(line, ':');
    if |data| < 2 then Other
    else if data[0] == TOTAL_KEY then Total(ParseU64(data[1]))
    else if data[0] == USED_KEY then Used(ParseU64(data[1]))
    else if data[0] == FREE_KEY then Free(ParseU64(data[1]))
    else Other
  }

  /**
    The state of the loop: still going with the records so far, returned
    `None` on an unreadable number, or panicked on `mem_info[0]` of an
    empty vector.
  */
  datatype Scan = Scanning(records: seq<GpuInfo>) | ParseFailed | IndexPanic

  /**
    One iteration. The number is parsed before `mem_info[0]` is indexed
    (Rust evaluates the right-hand side of an assignment first), so an
    unreadable Used/Free value returns `None` even when no record exists.
  */
  function ScanEntry(records: seq<GpuInfo>, e: Entry): Scan {
    match e
    case Other => Scanning(records)
    case Total(v) =>
      (match v
       case None => ParseFailed
       case Some(n) => Scanning(records + [MemoryRecord(n)]))
    case Used(v) =>
      (match v
       case None => ParseFailed
       case Some(n) =>
         if |records| == 0 then IndexPanic
         else Scanning(records[0 := records[0].(memoryUsed := n)]))
    case Free(v) =>
      (match v
       case None => ParseFailed
       case Some(n) =>
         if |records| == 0 then IndexPanic
         else Scanning(records[0 := records[0].(memoryFree := n)]))
  }

  function Next(st: Scan, e: Entry): Scan {
    match st
    case Scanning(records) => ScanEntry(records, e)
    case _ => st
  }

  /** The loop over `entries`, left to right, from state `st`. */
  function ScanAll(st: Scan, entries: seq<Entry>): Scan
    decreases |entries|
  {
    if |entries| == 0 then st else ScanAll(Next(st, entries[0]), entries[1..])
  }

  function Entries(lines: seq<string>): (es: seq<Entry>)
    ensures |es| == |lines|
  {
    if |lines| == 0 then [] else [Classify(lines[0])] + Entries(lines[1..])
  }

  /** Where the loop over the probe's output ends. */
  function Outcome(output: string): Scan {
    ScanAll(Scanning([]), Entries(OutputLines(output)))
  }

  /** The program panics on this output: an update reached an empty vector. */
  predicate SysctlPanics(output: string) {
    Outcome(output).IndexPanic?
  }

  /** `parse_sysctl_vm_info`, on output for which it returns. */
  function ParseSysctlVmInfo(output: string): Option<seq<GpuInfo>>
    requires !SysctlPanics(output)
  {
    match Outcome(output)
    case Scanning(records) => Some(records)
    case _ => None
  }

  // ---------------------------------------------------------------------
  // What the loop computes, stated without the loop.
  // ---------------------------------------------------------------------

  predicate IsUpdate(e: Entry) {
    e.Used? || e.Free?
  }

  /** A recognised key whose value `u64::from_str` rejects. */
  predicate Unreadable(e: Entry) {
    !e.Other? && e.value.None?
  }

  function ValueOf(e: Entry): nat
    requires !e.Other?
  {
    match e.value
    case Some(n) => n
    case None => 0
  }

  predicate TotalBefore(es: seq<Entry>, j: nat)
    requires j <= |es|
  {
    exists i :: 0 <= i < j && es[i].Total?
  }

  /**
    Entry `j` ends the loop early: its number is unreadable, or it is an
    update that comes before any "Total Memory" line.
  */
  predicate Decisive(es: seq<Entry>, j: nat)
    requires j < |es|
  {
    Unreadable(es[j]) || (IsUpdate(es[j]) && !TotalBefore(es, j))
  }

  predicate Quiet(es: seq<Entry>) {
    forall j :: 0 <= j < |es| ==> !Decisive(es, j)
  }

  /** The values of the "Total Memory" entries, in order. */
  function Totals(es: seq<Entry>): seq<nat>
    decreases |es|
  {
    if |es| == 0 then []
    else
      var e := es[|es| - 1];
      Totals(es[..|es| - 1]) + (if e.Total? then [ValueOf(e)] else [])
  }

  /** The value of the last "Used Memory" entry, or 0 when there is none. */
  function LastUsed(es: seq<Entry>): nat
    decreases |es|
  {
    if |es| == 0 then 0
    else if es[|es| - 1].Used? then ValueOf(es[|es| - 1])
    else LastUsed(es[..|es| - 1])
  }

  /** The value of the last "Free Memory" entry, or 0 when there is none. */
  function LastFree(es: seq<Entry>): nat
    decreases |es|
  {
    if |es| == 0 then 0
    else if es[|es| - 1].Free? then ValueOf(es[|es| - 1])
    else LastFree(es[..|es| - 1])
  }

  /**
    The records a quiet run ends with: one "Memory" record per "Total
    Memory" entry; the first carries the last Used and Free values, the
    others keep 0 for both.
  */
  function Expected(es: seq<Entry>): seq<GpuInfo> {
    var ts := Totals(es);
    if |ts| == 0 then []
    else
      [MemoryRecord(ts[0]).(memoryUsed := LastUsed(es), memoryFree := LastFree(es))]
      + seq(|ts| - 1, k requires 0 <= k < |ts| - 1 => MemoryRecord(ts[k + 1]))
  }

  // ---------------------------------------------------------------------
  // Lemmas.
  // ---------------------------------------------------------------------

  lemma {:induction false} ScanAllAppend(st: Scan, a: seq<Entry>, b: seq<Entry>)
    ensures ScanAll(st, a + b) == ScanAll(ScanAll(st, a), b)
    decreases |a|
  {
    if |a| > 0 {
      assert (a + b)[1..] == a[1..] + b;
      ScanAllAppend(Next(st, a[0]), a[1..], b);
    } else {
      assert a + b == b;
    }
  }

  lemma ScanAllSnoc(st: Scan, a: seq<Entry>, e: Entry)
    ensures ScanAll(st, a + [e]) == Next(ScanAll(st, a), e)
  {
    ScanAllAppend(st, a, [e]);
  }

  /** Once the loop has returned or panicked, later lines change nothing. */
  lemma {:induction false} ScanAllStops(st: Scan, es: seq<Entry>)
    requires !st.Scanning?
    ensures ScanAll(st, es) == st
    decreases |es|
  {
    if |es| > 0 {
      ScanAllStops(st, es[1..]);
    }
  }

  /** Lines without a recognised key may be added anywhere without effect. */
  lemma OtherLinesIgnored(st: Scan, a: seq<Entry>, b: seq<Entry>)
    ensures ScanAll(st, a + [Other] + b) == ScanAll(st, a + b)
  {
    ScanAllAppend(st, a + [Other], b);
    ScanAllSnoc(st, a, Other);
    ScanAllAppend(st, a, b);
  }

  lemma {:induction false} TotalsEmpty(es: seq<Entry>)
    ensures |Totals(es)| == 0 <==> !TotalBefore(es, |es|)
    decreases |es|
  {
    if |es| > 0 {
      var init := es[..|es| - 1];
      TotalsEmpty(init);
      if TotalBefore(init, |init|) {
        var i :| 0 <= i < |init| && init[i].Total?;
        assert es[i].Total?;
      }
      if TotalBefore(es, |es|) && !es[|es| - 1].Total? {
        var i :| 0 <= i < |es| && es[i].Total?;
        assert init[i].Total?;
      }
    }
  }

  /** A quiet run with no "Total Memory" entry has no update entry either. */
  lemma {:induction false} QuietWithoutTotalHasNoUpdates(es: seq<Entry>)
    requires Quiet(es) && !TotalBefore(es, |es|)
    ensures LastUsed(es) == 0 && LastFree(es) == 0
    decreases |es|
  {
    if |es| > 0 {
      var init := es[..|es| - 1];
      assert !Decisive(es, |es| - 1);
      QuietPrefix(es);
      forall i | 0 <= i < |init|
        ensures !init[i].Total?
      {
        assert init[i] == es[i];
      }
      QuietWithoutTotalHasNoUpdates(init);
    }
  }

  lemma QuietPrefix(es: seq<Entry>)
    requires |es| > 0 && Quiet(es)
    ensures Quiet(es[..|es| - 1])
  {
    var init := es[..|es| - 1];
    forall j | 0 <= j < |init|
      ensures !Decisive(init, j)
    {
      assert !Decisive(es, j);
      if TotalBefore(init, j) {
        var i :| 0 <= i < j && init[i].Total?;
        assert es[i].Total?;
      }
    }
  }

  /**
    Without an early end the loop leaves exactly the expected records:
    one per "Total Memory" line, the first patched by the last Used and
    Free lines.
  */
  lemma {:induction false} QuietRun(es: seq<Entry>)
    requires Quiet(es)
    ensures ScanAll(Scanning([]), es) == Scanning(Expected(es))
    decreases |es|
  {
    if |es| > 0 {
      var init := es[..|es| - 1];
      var e := es[|es| - 1];
      assert es == init + [e];
      QuietPrefix(es);
      QuietRun(init);
      ScanAllSnoc(Scanning([]), init, e);
      QuietStep(init, e);
    }
  }

  /** One more entry of a quiet run moves the expected records along. */
  lemma QuietStep(init: seq<Entry>, e: Entry)
    requires Quiet(init + [e])
    ensures ScanEntry(Expected(init), e) == Scanning(Expected(init + [e]))
  {
    var es := init + [e];
    assert es[..|es| - 1] == init;
    assert !Decisive(es, |es| - 1);
    assert !Unreadable(e);
    QuietPrefix(es);
    TotalsEmpty(init);
    match e
    case Other =>
      ExpectedAfterOther(init);
    case Total(v) =>
      if |Totals(init)| == 0 {
        QuietWithoutTotalHasNoUpdates(init);
      }
      ExpectedAfterTotal(init, v);
    case Used(v) =>
      var i :| 0 <= i < |es| - 1 && es[i].Total?;
      assert init[i].Total?;
      ExpectedAfterUsed(init, v);
    case Free(v) =>
      var i :| 0 <= i < |es| - 1 && es[i].Total?;
      assert init[i].Total?;
      ExpectedAfterFree(init, v);
  }

  lemma ExpectedAfterOther(init: seq<Entry>)
    ensures Expected(init + [Other]) == Expected(init)
  {
    assert (init + [Other])[..|init|] == init;
  }

  lemma ExpectedAfterTotal(init: seq<Entry>, v: Option<nat>)
    requires v.Some?
    requires |Totals(init)| == 0 ==> LastUsed(init) == 0 && LastFree(init) == 0
    ensures Expected(init + [Total(v)]) == Expected(init) + [MemoryRecord(v.value)]
  {
    var es := init + [Total(v)];
    var n := v.value;
    assert es[..|init|] == init;
    var ts := Totals(init);
    assert Totals(es) == ts + [n];
    assert LastUsed(es) == LastUsed(init) && LastFree(es) == LastFree(init);
    var before, after := Expected(init), Expected(es);
    if |ts| > 0 {
      assert |after| == |before| + 1;
      forall k | 0 <= k < |after|
        ensures after[k] == (before + [MemoryRecord(n)])[k]
      {
        if 0 < k < |before| {
          assert after[k] == MemoryRecord(ts[k]);
        }
      }
    }
  }

  lemma ExpectedAfterUsed(init: seq<Entry>, v: Option<nat>)
    requires v.Some? && |Totals(init)| > 0
    ensures |Expected(init)| > 0
    ensures Expected(init + [Used(v)])
         == Expected(init)[0 := Expected(init)[0].(memoryUsed := v.value)]
  {
    var es := init + [Used(v)];
    assert es[..|init|] == init;
    var ts := Totals(init);
    assert Totals(es) == ts;
    assert LastUsed(es) == v.value && LastFree(es) == LastFree(init);
    var before, after := Expected(init), Expected(es);
    assert |after| == |before|;
    forall k | 0 < k < |after|
      ensures after[k] == before[k]
    {
      assert after[k] == MemoryRecord(ts[k]);
    }
  }

  lemma ExpectedAfterFree(init: seq<Entry>, v: Option<nat>)
    requires v.Some? && |Totals(init)| > 0
    ensures |Expected(init)| > 0
    ensures Expected(init + [Free(v)])
         == Expected(init)[0 := Expected(init)[0].(memoryFree := v.value)]
  {
    var es := init + [Free(v)];
    assert es[..|init|] == init;
    var ts := Totals(init);
    assert Totals(es) == ts;
    assert LastFree(es) == v.value && LastUsed(es) == LastUsed(init);
    var before, after := Expected(init), Expected(es);
    assert |after| == |before|;
    forall k | 0 < k < |after|
      ensures after[k] == before[k]
    {
      assert after[k] == MemoryRecord(ts[k]);
    }
  }

  /** Entry `j` is the first entry that ends the loop early. */
  predicate FirstDecisive(es: seq<Entry>, j: nat) {
    j < |es| && Decisive(es, j) && forall i :: 0 <= i < j ==> !Decisive(es, i)
  }

  lemma DecisivePrefix(es: seq<Entry>, n: nat, i: nat)
    requires i < n <= |es|
    ensures Decisive(es[..n], i) == Decisive(es, i)
  {
    var pre := es[..n];
    assert pre[i] == es[i];
    if TotalBefore(es, i) {
      var k :| 0 <= k < i && es[k].Total?;
      assert pre[k].Total?;
    }
    if TotalBefore(pre, i) {
      var k :| 0 <= k < i && pre[k].Total?;
      assert es[k].Total?;
    }
  }

  lemma {:induction false} FirstDecisiveExists(es: seq<Entry>)
    requires !Quiet(es)
    ensures exists j :: FirstDecisive(es, j)
    decreases |es|
  {
    var n := |es| - 1;
    var init := es[..n];
    if Quiet(init) {
      forall i | 0 <= i < n
        ensures !Decisive(es, i)
      {
        DecisivePrefix(es, n, i);
      }
      assert FirstDecisive(es, n);
    } else {
      FirstDecisiveExists(init);
      var j: nat :| FirstDecisive(init, j);
      DecisivePrefix(es, n, j);
      forall i | 0 <= i < j
        ensures !Decisive(es, i)
      {
        DecisivePrefix(es, n, i);
      }
      assert FirstDecisive(es, j);
    }
  }

  /**
    The first entry that ends the loop early decides the outcome: an
    unreadable number makes the function return None, an update before
    any "Total Memory" line indexes the empty list and panics.
  */
  lemma FirstDecisiveDecides(es: seq<Entry>, j: nat)
    requires FirstDecisive(es, j)
    ensures ScanAll(Scanning([]), es) == (if Unreadable(es[j]) then ParseFailed else IndexPanic)
  {
    var pre := es[..j];
    forall i | 0 <= i < j
      ensures !Decisive(pre, i)
    {
      DecisivePrefix(es, j, i);
    }
    QuietRun(pre);
    assert es == pre + [es[j]] + es[j + 1..];
    ScanAllAppend(Scanning([]), pre + [es[j]], es[j + 1..]);
    ScanAllSnoc(Scanning([]), pre, es[j]);
    if !Unreadable(es[j]) {
      assert !TotalBefore(pre, |pre|);
      TotalsEmpty(pre);
    }
    ScanAllStops(Next(ScanAll(Scanning([]), pre), es[j]), es[j + 1..]);
  }

  /** The loop panics exactly when its first early end is an update with a readable value. */
  lemma PanicsIff(es: seq<Entry>)
    ensures ScanAll(Scanning([]), es).IndexPanic?
        <==> exists j: nat :: FirstDecisive(es, j) && !Unreadable(es[j])
  {
    if Quiet(es) {
      QuietRun(es);
    } else {
      FirstDecisiveExists(es);
      var j: nat :| FirstDecisive(es, j);
      FirstDecisiveDecides(es, j);
    }
  }

  /**
    Output in which every "Used Memory" and "Free Memory" line comes after
    some "Total Memory" line never makes the loop panic.
  */
  lemma UpdatesAfterTotalNeverPanic(es: seq<Entry>)
    requires forall j :: 0 <= j < |es| && IsUpdate(es[j]) ==> TotalBefore(es, j)
    ensures !ScanAll(Scanning([]), es).IndexPanic?
  {
    if !Quiet(es) {
      FirstDecisiveExists(es);
      var j: nat :| FirstDecisive(es, j);
      FirstDecisiveDecides(es, j);
    } else {
      QuietRun(es);
    }
  }

  /**
    For output that does not panic: None exactly when some recognised key
    carries an unreadable number; otherwise one "Memory" record per "Total
    Memory" line, the first carrying the last Used and Free values.
  */
  lemma ParseSysctlVmInfoSpec(output: string)
    requires !SysctlPanics(output)
    ensures ParseSysctlVmInfo(output).None?
        <==> exists j :: 0 <= j < |Entries(OutputLines(output))| && Unreadable(Entries(OutputLines(output))[j])
    ensures ParseSysctlVmInfo(output).Some?
        ==> ParseSysctlVmInfo(output).value == Expected(Entries(OutputLines(output)))
  {
    var es := Entries(OutputLines(output));
    assert Outcome(output) == ScanAll(Scanning([]), es);
    if Quiet(es) {
      QuietRun(es);
      forall j | 0 <= j < |es|
        ensures !Unreadable(es[j])
      {
        assert !Decisive(es, j);
      }
      assert ParseSysctlVmInfo(output) == Some(Expected(es));
    } else {
      FirstDecisiveExists(es);
      var j: nat :| FirstDecisive(es, j);
      FirstDecisiveDecides(es, j);
      assert Unreadable(es[j]);
      assert ParseSysctlVmInfo(output).None?;
      assert exists j :: 0 <= j < |Entries(OutputLines(output))| && Unreadable(Entries(OutputLines(output))[j]);
    }
  }

  /** A line without ':' has fewer than two fields and is skipped. */
  lemma ColonFreeLineIgnored(line: string)
    requires ':' !in line
    ensures Classify(line) == Other
  {
    FieldsSingle(line, ':');
  }

  /**
    A line `key:value…` is judged by its trimmed key, and a recognised key
    carries its value up to the next ':' (later colons and what follows
    them are ignored), trimmed; any other key is ignored.
  */
  lemma KeyValueLine(key: string, value: string)
    requires ':' !in key
    ensures Trim(key) == TOTAL_KEY ==> Classify(key + [':'] + value) == Total(ParseU64(Trim(Split(value, ':')[0])))
    ensures Trim(key) == USED_KEY ==> Classify(key + [':'] + value) == Used(ParseU64(Trim(Split(value, ':')[0])))
    ensures Trim(key) == FREE_KEY ==> Classify(key + [':'] + value) == Free(ParseU64(Trim(Split(value, ':')[0])))
    ensures Trim(key) !in {TOTAL_KEY, USED_KEY, FREE_KEY} ==> Classify(key + [':'] + value) == Other
  {
    FieldsAround(key, ':', value);
    FieldsSingle(key, ':');
    TrimEachAt(Split(value, ':'), 0);
  }
}
